=== FILE: README.md ===
# Dead-reckoning trainer — a Dafny model of its core

The trainer is a browser game for dead-reckoning navigation. The trainee plans a flight:

- They decide a planned wind and a true airspeed for the default route KWA → TGU → PSN → KWA, or they build a custom route through the navaid database.
- The program writes a flight log, with one row per leg: TC, MC, TH, MH, drift angle, ground speed, distance and ETE.
- A run then starts. The aircraft spawns near the first navaid, with a heading up to 30 degrees off the first course, and flies in an actual wind. That wind is drawn around the plan and fluctuates every three seconds.
- The trainee steers by entering headings and airspeeds. The aircraft answers after a five-second delay: it turns at 3 degrees per second, or it changes speed over 10 seconds.
- Every frame refreshes the ETA column and runs the ATA detector. The detector stamps a waypoint's ATA once the aircraft's distance to it grows again after its closest approach. The frame also selects the nearest working station for the HSI.

This project models that core:

- `Numeric`, `Text`: the JavaScript number and string operations the program relies on. These are `Math.round`, `%`, `toString`, `padStart`, `split` and `parseInt`.
- `Angles`: the angle and unit helpers of `navigation.js`.
- `Aircraft`: the `AircraftState` class. It has a heading axis and a speed axis with delay, turn rate and acceleration, and a position history.
- `TimeFormat`: `formatTime` (`HH+MM`) and `formatTimeHMS`, each with the way the program reads its own output back.
- `FlightLog`: the log rows and `updateETA`.
- `Arrival`: the closest-approach ATA detector and `checkATA`.
- `Wind`: the seeding and fluctuation of the actual wind.
- `Navaids`: the nearest-station choice and custom-route validation.
- `Session`: the application commands and the frame update, in the program's order.

Every trigonometric result arrives as a parameter: the wind triangle of the plan (`FlightLog.Solver`), spawn positions, track, ground speed, the aircraft's position after a frame, and distances to navaids. `Math.random()` draws are reals in [0, 1).

## Model

| member | source | states |
|---|---|---|
| Numeric.Round | navigation.js:196-199 | `Math.round` gives the integer within half a unit of its argument, with halves going up. |
| Numeric.Rem | app.js:1264-1268 | The JavaScript `%` on integers keeps the dividend's sign, stays below the divisor in magnitude, and differs from the dividend by a multiple of the divisor. |
| Angles.NormalizeAngle | navigation.js:245-249 | The result lies in [0, 360), names the same bearing as the input, and leaves an angle already in range alone. |
| Angles.NormalizeCanonical | navigation.js:245-249 | Two angles that name the same bearing normalise to the same value. |
| Angles.NormalizeIdempotent | navigation.js:245-249 | Normalising twice is normalising once. |
| Angles.NormalizeWhole | navigation.js:245-249 | On whole degrees, normalisation is the non-negative residue mod 360. |
| Angles.AngleDifference | navigation.js:257-262 | The difference names the same bearing as `to - from`. For inputs within one extra turn it lies in [-180, 180], and an exact half turn keeps its sign. |
| Angles.AngleDifferenceIsShortest | navigation.js:257-262 | No other representative of the same bearing is shorter than the difference. |
| Angles.AngleDifferenceUnique | navigation.js:257-262 | Any representative in (-180, 180) of the same bearing is the difference. |
| Angles.ShiftedDifference | navigation.js:245-262 | Turning a bearing by less than half a turn and normalising gives back that turn as the difference. |
| Angles.MagneticToTrue | navigation.js:227-229 | Converting magnetic to true is undone by converting back. |
| Angles.VariationRoundTrip | navigation.js:227-238 | The magnetic/true conversions with the 8-degree variation are inverse to each other in both orders. |
| Angles.CalculateEte | navigation.js:196-199 | A zero ground speed gives 0 minutes. Otherwise the result is the distance over ground speed in minutes, rounded, and it is non-negative for a non-negative distance and speed. |
| Angles.CalculateTime | navigation.js:217-220 | The same rounding law for a distance flown at a speed. |
| Text.ShowNatValue | app.js:667-670 | The decimal text of a natural number reads back as that number. |
| Text.ParseInt | app.js:669 | No contract of its own, so that the read-back proofs stay cheap; what it accepts and the sign of its value are stated by Text.ParseIntAccepts. |
| Text.ParseIntAccepts | app.js:669 | `parseInt` reads a number exactly when a digit follows the optional sign. The value is never positive after a minus sign and never negative otherwise. |
| Text.ParsePaddedInt | app.js:667-670 | An integer text padded with zeros to width two parses back to the integer, including negative values. |
| Text.SplitFirst | app.js:669 | Splitting at the first separator gives the part before it, followed by the split of the rest. |
| Text.SplitSeparator | app.js:669 | Splitting gives a single piece exactly when the separator does not occur. |
| TimeFormat.FormatTime | app.js:1264-1268 | A `HH+MM` cell is at least five characters, because both fields are padded to two. How it reads back is stated by TimeFormat.FormatTimeRoundTrip and TimeFormat.ReadFormatTime. |
| TimeFormat.ReadMinutes | app.js:669-670 | An ETE cell yields a number exactly when it contains `+`. Without one, `mins` is undefined and the sum is `NaN`. |
| TimeFormat.FormatTimeRoundTrip | app.js:1264-1268 | `updateETA`'s parse of a `formatTime` cell gives back the minutes exactly when the minutes are non-negative or a whole number of hours. |
| TimeFormat.ReadFormatTime | app.js:664-670 | The parse of any `formatTime` cell is floor-hours times 60 plus the truncated remainder. |
| TimeFormat.MisreadNegative | app.js:664-670 | A negative minute count that is not whole hours is read back one hour early. |
| TimeFormat.MisreadMinus116 | app.js:1264-1268 | The concrete case: -116 minutes prints as `-2+-56` and reads back as -176. |
| TimeFormat.FormatZero | app.js:451-453 | The START time `formatTime(0)` is `00+00`. |
| TimeFormat.FormatTimeHms | app.js:599-604 | The `HH:MM:SS` text has at least eight characters, and for a non-negative second count it reads back as that count. |
| TimeFormat.FormatTimeHmsRoundTrip | app.js:599-604 | For a non-negative second count, the `HH:MM:SS` text reads back as that count and its fields are in range. |
| FlightLog.TrueDirectionResidue | app.js:329-338 | A true course or heading is the magnetic value less the variation, normalised into [0, 360). |
| FlightLog.Pad3ReadsBack | app.js:349-352 | A three-digit padded column reads back as its value. |
| FlightLog.SignedTextReadsBack | app.js:353 | The drift-angle column starts with `+` exactly when the angle is non-negative, and it reads back as the angle. |
| FlightLog.LegRow | app.js:328-359 | A leg row carries the remark, names the leg's destination and its distance, and leaves ETA and ATA open. Its computed columns are stated by FlightLog.LegRowColumns and FlightLog.LegEteReadsBack. |
| FlightLog.LegRowColumns | app.js:328-359 | In a leg row the TC and TH are the MC and MH less the 8-degree variation, taken into [0, 360). The drift angle is course minus heading, not normalised, and its text starts with `+` exactly when the heading is not right of the course. |
| FlightLog.LegEteReadsBack | app.js:343-356 | For a non-negative distance and ground speed, a leg's ETE is non-negative, and its cell reads back as that ETE. |
| FlightLog.BuildLog | app.js:301-361 | The log has a START row followed by one row per leg, in order, with the leg's remark. |
| FlightLog.DefaultLog | app.js:322-326 | The default log is START KWA, then TGU (1), PSN (2) and KWA (END). |
| FlightLog.CustomLog | app.js:1104-1153 | The custom log starts at the route's first navaid and numbers its rows 1, 2, … toward each leg's destination. |
| FlightLog.EtaRows | app.js:662-675 | The leg-row pass keeps the number of rows. What it writes is stated by FlightLog.RefreshEtaFrame and FlightLog.RefreshEtaTotals. |
| FlightLog.RefreshEta | app.js:651-679 | The refresh keeps the log's length, changes the START row only in its ATA, and leaves a stamped START ATA alone. |
| FlightLog.RefreshEtaFrame | app.js:664-676 | The refresh changes leg rows only in their ETA. |
| FlightLog.RefreshEtaTotals | app.js:662-675 | When every leg row carries a readable ETE, row i's ETA is the formatted running total of the first i ETEs. |
| FlightLog.RefreshEtaStartAta | app.js:656-659 | After a refresh, an unset START ATA reads `00+00`. |
| FlightLog.RefreshEtaIdempotent | app.js:651-679 | Refreshing twice gives the same log as refreshing once. |
| FlightLog.BuiltLogEtas | app.js:301-361 | In a freshly built log whose legs have non-negative distances and ground speeds, the refreshed ETAs are the running totals of the planned leg ETEs. A negative ground speed is possible, since the true airspeed is not validated. Its ETE cell then reads back one hour early (TimeFormat.MisreadNegative), and the totals drift. |
| Arrival.Step | app.js:699-704 | One detector step never raises the closest distance. It never clears `passed`, and it sets `passed` exactly when the aircraft moves away after a recorded approach. It stamps only the current time, and it leaves a record unchanged when the distance is equal. |
| Arrival.StepTwice | app.js:699-704 | Repeating a sample at the same time changes nothing. |
| Arrival.FiresAtMostOnce | app.js:699-713 | Over any run of samples the detector fires at most once, fires exactly when `passed` turns true, and never fires again after that. |
| Arrival.RunFromFresh | app.js:699-701 | From a fresh record, the closest distance is the minimum over the run, and the stored time is the time of the first sample at that minimum. |
| Arrival.PassedFromFresh | app.js:702-704 | From a fresh record, the waypoint is passed exactly when some sample lies farther than an earlier minimum. |
| Arrival.FallingRun | app.js:699-701 | A strictly approaching run is not passed, and it holds its last sample. |
| Arrival.DipThenRise | app.js:699-709 | With samples falling to index k and rising after it, the waypoint is not passed at k, is passed one sample later, and its ATA time is that of sample k. |
| Arrival.StepNotPassingAgain | app.js:702 | Right after a step, the same distance cannot trigger a passage. |
| Arrival.Visit | app.js:690-714 | One waypoint's visit keeps the record keys and the log length. What it writes is stated by Arrival.CheckAtaRecords, Arrival.CheckAtaLog and Arrival.CheckAtaPassages. |
| Arrival.CheckAta | app.js:684-716 | A check keeps the record keys and the log length, and a route with no waypoint after START changes nothing. |
| Arrival.CheckAtaRecords | app.js:684-704 | Each record ends up as the detector stepped once for each of its visits in the route after START. Records not on that route, or without a map position, are unchanged. |
| Arrival.CheckAtaLog | app.js:705-710 | A log row changes only in its ATA. The ATA is written only at the first route position naming a navaid that passes in this frame, and then it is the formatted rounded minute of the closest-approach time. |
| Arrival.CheckAtaPassages | app.js:711-713 | The passages announced are exactly those waypoints that pass in this frame and have a log row, in route order. |
| Wind.Seed | app.js:411-419 | The seeded direction lies within 40 degrees either side of the plan and is normalised. The speed is never negative and is within 10 knots of the plan. The base wind is the seeded wind and the clock is zero. |
| Wind.DirectionStep | app.js:640-641 | A direction draw is whole degrees in [-5, 5], with its sign chosen by the second draw. |
| Wind.DirectionStepCovers | app.js:640-641 | Every whole-degree step from -5 to 5 can be drawn. |
| Wind.SpeedStep | app.js:644 | A speed draw is whole knots in [-5, 5]. |
| Wind.SpeedStepCovers | app.js:644 | Every whole-knot step from -5 to 5 can be drawn. |
| Wind.ClampSpeed | app.js:645 | The clamp lies in [20, 70] and keeps an in-range speed unchanged. |
| Wind.ClampSpeedNarrows | app.js:645 | Clamping never moves two speeds farther apart. |
| Wind.Fluctuate | app.js:638-646 | A fluctuated wind lies within 5 degrees and 5 knots of the (clamped) base wind. Its speed is within [20, 70], and the base is kept. |
| Wind.FluctuateForgets | app.js:638-646 | The previous actual wind has no influence on the next one. |
| Wind.WindTick | app.js:615-618 | The wind changes only at least three seconds after the last change, and the change is stamped with the current time. |
| Wind.SeedInv | app.js:411-419 | A seeded wind satisfies the wind invariant. |
| Wind.WindTickInv | app.js:615-618 | Every frame keeps the wind invariant, and the last change never lies after the frame. |
| Wind.WindChangesSpaced | app.js:615-618 | Over a run of frames, consecutive wind changes lie at least three seconds apart. |
| Navaids.Nearest | app.js:734-766 | The result is None exactly when no key is an operative, placed station. Otherwise it is such a station, no farther than any other, and the earliest among equals. |
| Navaids.SelectNearest | app.js:734-766 | Over the whole database, the selection is an eligible station, and there is none exactly when nothing is eligible. |
| Navaids.SelectNearestLeast | app.js:757-762 | The selected station is no farther than any eligible station in the database. |
| Navaids.CustomChoiceTicked | app.js:739-752 | With a custom route, only stations ticked on that route can be chosen. |
| Navaids.FirstError | app.js:1027-1054 | The reported error is the error of the first failing row. There is none exactly when no row fails. |
| Navaids.NoErrorValid | app.js:1027-1055 | No row fails exactly when the route is non-empty, known and connected leg by leg. |
| Navaids.Operative | app.js:1057-1060 | The working-status map has one key per route navaid. |
| Navaids.OperativeLastRow | app.js:1057-1060 | A repeated navaid takes its working status from its last row. |
| Navaids.OperativeFix | app.js:1060 | A fix always counts as working. |
| Navaids.RouteLegs | app.js:1072-1083 | Each leg joins consecutive route navaids with that connection's course and distance. |
| Navaids.CalculateCustomRoute | app.js:1011-1083 | A planned wind out of range is refused first, as `BadWind`. An accepted route has one navaid per row, at least two, and one leg fewer than navaids. |
| Navaids.CustomRouteAccepted | app.js:1011-1083 | A route is accepted exactly when the wind is in range, no row fails and it has two or more navaids. It then carries those navaids, one leg fewer than navaids, and their working status. |
| Navaids.CustomRouteRejected | app.js:1015-1066 | The checks come in order: wind first, then the first failing row, then too few navaids. |
| Session.InitialInv | app.js:4-52 | A new application has not started and satisfies the run invariant. |
| Session.DecideWindInv | app.js:271-296 | Deciding a wind keeps the run invariant. |
| Session.DecideWind | app.js:271-296 | A wind out of range changes nothing. Otherwise the plan, the default log and one `WIND DECIDED` event are the only changes. |
| Session.BuildCustomRoute | app.js:1011-1102 | A rejected route changes nothing. An accepted one changes only the route, legs, working status, plan and log, and adds the route and wind events. The log has one row per route navaid. |
| Session.BuildCustomRouteInv | app.js:1068-1083 | The custom route always has one more navaid than legs. |
| Session.SpawnAircraft | app.js:396-426 | The spawned heading is normalised and within 30 degrees of the first course. TAS is 240, no turn or speed change is pending, the history is empty, and the aircraft flies in the seeded wind. |
| Session.CustomRecords | app.js:1209-1215 | There is one fresh record for each navaid after START, shared by repeats. |
| Session.Launch | app.js:396-461 | A start sets the run going at time zero with the given records and route mode. It installs the wind seeded from the plan and an aircraft spawned in that wind, stamps the START row `00+00` and refreshes the ETAs. It logs the start, the actual wind and the initial heading and TAS, in that order. Nothing else changes: the plan, the custom route and the selection are kept. |
| Session.LaunchInv | app.js:396-461 | A run just started satisfies the run invariant. |
| Session.LaunchStartAta | app.js:451-456 | A run just started shows `00+00` as its START ATA. |
| Session.StartTraining | app.js:390-461 | Without a calculated log nothing happens. Otherwise a default run starts on the KWA–TGU course, with records for TGU, PSN and KWA_END. |
| Session.StartTrainingInv | app.js:390-461 | A default start, or its refusal, keeps the run invariant. |
| Session.StartCustomTrainingInv | app.js:1158-1237 | A custom start keeps the run invariant in every branch, including the one that only replaces the aircraft. |
| Session.StartCustomTraining | app.js:1158-1237 | Without a custom route nothing happens. A first navaid missing from the map only resets the aircraft. Otherwise a custom run starts on the first leg's course, with the custom records. |
| Session.SubmitControl | app.js:466-502 | Outside a run, or with both fields blank, nothing happens. A heading outside 0..360 refuses both values. Otherwise only the heading axis, the speed axis and the events change. A blank heading leaves the turn alone. A blank speed, or one outside 100..300, leaves the speed alone. One event is logged per accepted value, heading first. |
| Session.SubmitControlInv | app.js:466-502 | Commands keep the run invariant, since a commanded heading is normalised. |
| Session.MessageText | app.js:295-500 | No contract of its own: each case is the literal template of the matching `addEventLog` call. |
| Session.EventText | app.js:584-586 | An event line is its `HH:MM:SS` stamp, then ` \| `, then the message. For a non-negative second count the stamp reads back as that count. |
| Session.Announce | app.js:711-713 | Each passage becomes one `PASSED` event at the frame's second, in order. |
| Session.Fly | app.js:609-623 | The flight half of a frame advances the clock by the frame length. It steps the heading and speed axes at the new time, moves the aircraft, saves its track and ticks the wind. It changes nothing else. |
| Session.Bookkeep | app.js:625-632 | The bookkeeping half, with the detector walking a given route, changes only the log, records, events and selection. It keeps the log length and the record keys. |
| Session.Tick | app.js:609-633 | Before a run starts, a frame changes nothing. Once it runs, the detector walks the custom route, as the guard at app.js:686-688 is written. Its frame properties are stated by Session.TickRecords, Session.TickLogColumns and Session.TickWithoutCustomRoute. |
| Session.TickIntended | app.js:684-688 | With the detector walking the route of the run's mode, a frame is the program's frame on every custom run, and a no-op before a run. |
| Session.TickInv | app.js:609-633 | Every frame, whichever route the detector walks, keeps the run invariant: a non-negative clock, a non-empty log, a valid wind last changed no later than the clock, heading and target on the compass, and a well-spaced history. |
| Session.FlyInv | app.js:609-623 | The flight half keeps the run invariant. |
| Session.FlyTurnInv | app.js:621 | A frame keeps the heading and its target in [0, 360). |
| Session.TickLogColumns | app.js:625-629 | A frame changes the log only in its ETA and ATA columns and keeps its length, whichever route the detector walks. |
| Session.TickWithoutCustomRoute | app.js:684-716 | As written, a run with no calculated custom route has its detector walk nothing. A frame only refreshes the ETAs: it keeps every record and ATA and logs no passage. |
| Session.AtaRouteAsWritten | app.js:684-688 | No contract of its own: the detector walks the custom route on every run, since the array the guard tests is always truthy. Its consequences are stated by Session.AtaRouteAsWrittenMisses and Session.TickWithoutCustomRoute. |
| Session.AtaRoute | app.js:684-688 | The route as the comment above the guard means it. On a custom run it is the custom route, as written. On a default run, past START, it is TGU, PSN, KWA, the guard's fallback list. |
| Session.AtaRouteAsWrittenMisses | app.js:684-688 | With the guard as written, a default run with no custom route never marks TGU passed. A default run with a custom route left over writes PSN's ATA into the TGU row. |
| Session.AtaRouteDefaultRun | app.js:684-716 | With the guard as meant, a default run marks TGU passed and writes its ATA into the TGU row. PSN's ATA goes into the PSN row, and the other rows stay as they were. |
| Session.TickDefaultRunEnd | app.js:684-716 | Under the intended route (Session.TickIntended), a default run's frame never steps the `KWA_END` record and never writes the END row's ATA, because the detector looks the final waypoint up as `KWA`. |
| Session.TickEvents | app.js:706-713 | A frame appends exactly one `PASSED - ATA` event per passage the detector notes, in route order, stamped with the frame's second. As written, the passages come from the custom route. Under Session.TickIntended, they come from the route of the run's mode. |
| Session.TickRecords | app.js:684-716 | A frame steps each record once per visit, at the frame's time, and never takes back a passed mark. As written, the visits are those of the custom route. Under Session.TickIntended, they are those of the route of the run's mode. |
| Session.TickSelection | app.js:631-632 | The station a frame selects is eligible and nearest, and there is none exactly when nothing is eligible. |
| Aircraft.SetHeading | navigation.js:297-302 | A heading command keeps the current heading, normalises the target and starts the 5-second delay now. |
| Aircraft.SetTas | navigation.js:307-312 | A speed command keeps the current airspeed, sets the target and starts the delay now. |
| Aircraft.TurnStep | navigation.js:319-338 | During the delay, or with no turn pending, nothing changes. A turn never restarts itself. |
| Aircraft.TurnStepProgress | navigation.js:319-338 | After the delay the heading closes on the target by `3 × dt` degrees on the shorter side without overshooting, and snaps to it when within reach. |
| Aircraft.TurnHeldDuringDelay | navigation.js:320-324 | Frames that all fall inside the delay leave the heading axis unchanged. |
| Aircraft.TurnConverges | navigation.js:319-338 | Over many frames the remaining turn shrinks by 3 degrees per second flown until the target is reached exactly. |
| Aircraft.SpeedStep | navigation.js:341-359 | During the delay, or with no change pending, nothing changes. |
| Aircraft.SpeedStepProgress | navigation.js:341-359 | After the delay the airspeed moves toward the target by the fraction `dt / 10` of the remaining gap, never past it, and lands exactly on it once the 10-second window is over. |
| Aircraft.SpeedSettles | navigation.js:341-359 | Over many frames the airspeed stays between its start and the target, and equals the target once the window is over. |
| Aircraft.Update | navigation.js:317-369 | An update steps the heading axis and the speed axis, stores the actual wind, track and ground speed, and keeps the position, history and targets. |
| Aircraft.TurnStepOnCompass | navigation.js:319-338 | Every tick keeps heading and target in [0, 360), whether idle, waiting, snapping or turning. |
| Aircraft.SaveHistory | navigation.js:385-399 | Less than a second after the last save nothing changes. Otherwise the save time is now and the newest sample is the current position. |
| Aircraft.SaveHistorySaves | navigation.js:385-399 | A position is saved at most once a second, as the newest sample stamped with the save time, and the oldest sample is dropped beyond 3600. |
| Aircraft.SaveHistoryInv | navigation.js:385-399 | The history stays within 3600 samples, with times at least a second apart and increasing. |
| Aircraft.HistoryKeepsMostRecent | navigation.js:385-399 | After any frames, the history is the most recent 3600 of all positions ever saved. |

## Left out

- The trigonometry of `navigation.js` is not modelled: `getVector`, `distanceBetween`, `bearingBetween`, `calculateTrackAndGS`, `calculateRequiredHeading`, `calculateWind` and the position step of `updatePosition`. Their results are parameters: the plan's `Solver`, and the track, ground speed, position and navaid distances of each frame and spawn. This is because floating-point trigonometry has no exact counterpart over reals.
- `calculateDistance` and the MB4 calculator tab are not modelled. They are a stand-alone calculator that no state depends on.
- The map position of each navaid and the NM-to-pixel scale are left out. The model has one distance function in NM. Pixel distances are NM times a positive scale, so the nearest-station choice orders stations identically.
- Everything DOM-related is left out, because it is presentation: the renderer (`renderer.js`), canvases, panning, tabs, alerts, autocomplete, `addCustomLeg`/`removeCustomLeg` with its leg limit, and `updateFlightLog`.
- Reading form fields is left out. `parseInt(...) || 0`, `toUpperCase().trim()` and NaN handling belong to the input layer, so commands take parsed integers, and a blank field is `None`.
- `requestAnimationFrame`, `performance.now`, the `paused` flag and the 0.1-second cap on a frame are left out. The frame length is an input that the model assumes to be at most 0.1 s.
- `Math.random()` is not modelled. Its draws are inputs in [0, 1).
- The navaid database in `navaid-database.js` and `data.js` is not copied. The model works over any well-formed database, and the default legs name only the courses and distances the default log needs.
- Session.MessageText: the event log records typed messages; Session.EventText renders them behind the `HH:MM:SS` stamp that `addEventLog` adds. The 20-entry display window is not modelled.
- The flight-log numeric columns are kept as integers and real distances, with `Pad3` and `SignedText` rendering them. The `gs` and `dist` columns keep the value, not its `toString`.
- Arrival.CheckAta: the formatter is a parameter (`clock`), which the application instantiates with `formatTime`.
- Floating-point rounding is not modelled, because reals are exact. In the program, `normalizeAngle` can return 360 for a tiny negative input, and the model returns a value below 360.
- Aircraft.Update: the track and ground speed are integers given by the frame, not the real values `calculateTrackAndGS` returns.

## Findings

| source | as written | input that shows it | evidently intended | confidence | as-written member | corrected member |
|---|---|---|---|---|---|---|
| app.js:686-688 | The guard `this.customRoute ? this.customRoute : [...]` tests an array, and an array is always truthy. A default run therefore walks the custom route: an empty one if none was calculated, or one left over from an earlier calculation. | A default run with no custom route, where TGU recedes from 1 NM to 2 NM: TGU is never marked passed. The same run with a leftover custom route `["KWA", "PSN"]`: PSN's ATA is written into log row 1, the TGU row. | The waypoints follow the route mode of the run, as the comment above the guard says: the custom route on a custom run, KWA → TGU → PSN → KWA otherwise. | not executed | Session.AtaRouteAsWritten, Session.AtaRouteAsWrittenMisses, Session.TickWithoutCustomRoute | Session.AtaRoute, Session.AtaRouteDefaultRun, Session.TickIntended |

Session.Tick is the program's frame as written, with the detector walking the custom route on every run. Session.TickIntended is the same frame with the detector walking the route of the run's mode. The two agree on every custom run. The frame lemmas Session.TickInv, Session.TickLogColumns, Session.TickRecords and Session.TickEvents state their properties for both.

A second mismatch remains under the intended route. A default run keeps its last record under `KWA_END`, while the detector looks the final waypoint up as `KWA`. Session.TickDefaultRunEnd states the consequence for Session.TickIntended: the END row of a default run never gets an ATA. The mismatch is not listed as a finding, because its repair is not evident. As written, by contrast, a leftover custom route with TGU or PSN at position 3 does write that waypoint's ATA into the END row.

=== FILE: aircraft.dfy ===
/**
 * The simulated aircraft: two independent command axes (heading and true
 * airspeed), each entered by a command, held for a response delay, then
 * converging on its target; and the bounded, time-ordered position history.
 * Track, ground speed and position are outputs of the wind-triangle and
 * vector trigonometry and enter this model as values.
 */
module Aircraft {
  import opened Numeric
  import opened Angles

  /** Performance figures of the trainer aircraft. */
  const DefaultTas: real := 240.0
  const TurnRate: real := 3.0    // degrees per second
  const AccelTime: real := 10.0  // seconds for a speed change
  const BankDelay: real := 5.0   // seconds before a commanded change starts

  /** The history keeps one hour of one-second samples. */
  const HistoryLimit: nat := 3600
  const HistoryInterval: real := 1.0

  /** The game loop never advances the clock by more than this many seconds per tick. */
  const MaxTick: real := 0.1

  datatype HeadingAxis = HeadingAxis(heading: real, target: real, turning: bool, start: real, delay: real)

  datatype SpeedAxis = SpeedAxis(tas: real, target: real, changing: bool, start: real, delay: real)

  datatype Sample = Sample(x: real, y: real, time: real)

  datatype History = History(samples: seq<Sample>, lastSave: real)

  datatype AircraftState = AircraftState(
    x: real, y: real,
    turn: HeadingAxis,
    speed: SpeedAxis,
    track: int, groundSpeed: int,
    windDir: real, windSpd: real,
    history: History)

  /** A freshly constructed aircraft: nose north, default airspeed, nothing pending, no history. */
  function NewAircraft(): (ac: AircraftState) {
    AircraftState(
      0.0, 0.0,
      HeadingAxis(0.0, 0.0, false, 0.0, 0.0),
      SpeedAxis(DefaultTas, DefaultTas, false, 0.0, 0.0),
      0, 0, 0.0, 0.0,
      History([], 0.0))
  }

  // ---------------------------------------------------------------------
  // Heading axis
  // ---------------------------------------------------------------------

  /** `setHeading`: the target is normalised, and the turn is pending from `now` for the bank delay. */
  function SetHeading(a: HeadingAxis, newHeading: real, now: real): (r: HeadingAxis)
    ensures r.heading == a.heading
    ensures r.turning && r.start == now && r.delay == BankDelay
    ensures 0.0 <= r.target < 360.0 && SameBearing(r.target, newHeading)
  {
    a.(target := NormalizeAngle(newHeading), turning := true, start := now, delay := BankDelay)
  }

  /**
   * The heading branch of `update`: nothing while idle or inside the delay;
   * afterwards a snap to the target when the remaining turn fits in this tick,
   * otherwise a turn of `TurnRate * dt` toward the shorter side.
   */
  function TurnStep(a: HeadingAxis, dt: real, now: real): (r: HeadingAxis)
    ensures r.target == a.target && r.start == a.start && r.delay == a.delay
    ensures !a.turning || now - a.start < a.delay ==> r == a
    ensures r.turning ==> a.turning
  {
    if !a.turning || now - a.start < a.delay then a
    else
      var diff := AngleDifference(a.heading, a.target);
      if Abs(diff) <= TurnRate * dt then a.(heading := a.target, turning := false)
      else a.(heading := NormalizeAngle(a.heading + Toward(diff, TurnRate * dt)))
  }

  /** `Math.sign(diff) * amount`: the amount, signed like `diff`. */
  function Toward(diff: real, amount: real): (step: real) {
    if diff > 0.0 then amount else if diff < 0.0 then -amount else 0.0
  }

  predicate OnCompass(a: HeadingAxis) {
    0.0 <= a.heading < 360.0 && 0.0 <= a.target < 360.0
  }

  /**
   * One tick after the delay: either the remaining turn fits and the heading
   * snaps onto the target, ending the turn; or the aircraft turns by exactly
   * `TurnRate * dt` toward the target, staying on the compass, and the remaining
   * turn keeps its side and shrinks by that amount, so it never overshoots.
   */
  lemma TurnStepProgress(a: HeadingAxis, dt: real, now: real)
    requires a.turning && now - a.start >= a.delay && dt >= 0.0
    requires OnCompass(a)
    ensures OnCompass(TurnStep(a, dt, now))
    ensures var d := AngleDifference(a.heading, a.target);
      Abs(d) <= TurnRate * dt ==> TurnStep(a, dt, now).heading == a.target && !TurnStep(a, dt, now).turning
    ensures var d := AngleDifference(a.heading, a.target);
      var r := TurnStep(a, dt, now);
      Abs(d) > TurnRate * dt ==>
        r.turning &&
        AngleDifference(r.heading, r.target) == d - Toward(d, TurnRate * dt) &&
        Abs(AngleDifference(r.heading, r.target)) == Abs(d) - TurnRate * dt
  {
    var d := AngleDifference(a.heading, a.target);
    if Abs(d) > TurnRate * dt {
      TurnStepTurns(a, dt, now);
    }
  }

  /** Every tick keeps heading and target on the compass, whether idle, waiting, snapping or turning. */
  lemma TurnStepOnCompass(a: HeadingAxis, dt: real, now: real)
    requires OnCompass(a) && dt >= 0.0
    ensures OnCompass(TurnStep(a, dt, now))
  {
    if a.turning && now - a.start >= a.delay {
      TurnStepProgress(a, dt, now);
    }
  }

  /** The branch where the remaining turn does not fit in the tick. */
  lemma TurnStepTurns(a: HeadingAxis, dt: real, now: real)
    requires a.turning && now - a.start >= a.delay && dt >= 0.0
    requires OnCompass(a)
    requires Abs(AngleDifference(a.heading, a.target)) > TurnRate * dt
    ensures var d := AngleDifference(a.heading, a.target);
      var r := TurnStep(a, dt, now);
      && r.heading == NormalizeAngle(a.heading + Toward(d, TurnRate * dt))
      && AngleDifference(r.heading, r.target) == d - Toward(d, TurnRate * dt)
  {
    var d := AngleDifference(a.heading, a.target);
    assert -180.0 <= d <= 180.0;
    TurnRemaining(a.heading, a.target, Toward(d, TurnRate * dt));
  }

  /** Turning from `h` by `step` leaves `AngleDifference(h, t) - step` to go, when that is within a half turn. */
  lemma TurnRemaining(h: real, t: real, step: real)
    requires 0.0 <= h < 360.0 && 0.0 <= t < 360.0
    requires -180.0 <= AngleDifference(h, t) - step <= 180.0
    requires AngleDifference(h, t) - step == 180.0 || AngleDifference(h, t) - step == -180.0 ==> step == 0.0
    ensures AngleDifference(NormalizeAngle(h + step), t) == AngleDifference(h, t) - step
  {
    var d := AngleDifference(h, t);
    var h' := NormalizeAngle(h + step);
    var e := d - step;
    if e == 180.0 || e == -180.0 {
      assert h' == h;
    } else {
      var k1 :| h' - (h + step) == Turns(k1);
      var k2 :| d - (t - h) == Turns(k2);
      assert e - (t - h') == Turns(k1 + k2);
      SameBearingBy(e, t - h', k1 + k2);
      AngleDifferenceUnique(h', t, e);
    }
  }

  function Sum(dts: seq<real>): (total: real) {
    if |dts| == 0 then 0.0 else dts[0] + Sum(dts[1..])
  }

  predicate NonNegative(dts: seq<real>) {
    forall i :: 0 <= i < |dts| ==> dts[i] >= 0.0
  }

  lemma {:induction false} SumNonNegative(dts: seq<real>)
    requires NonNegative(dts)
    ensures Sum(dts) >= 0.0
  {
    if |dts| > 0 {
      SumNonNegative(dts[1..]);
    }
  }

  /** The heading axis over a run of ticks of the given lengths, the clock starting at `now`. */
  function RunTurn(a: HeadingAxis, now: real, dts: seq<real>): (r: HeadingAxis)
    decreases |dts|
  {
    if |dts| == 0 then a else RunTurn(TurnStep(a, dts[0], now + dts[0]), now + dts[0], dts[1..])
  }

  lemma {:induction false} RunTurnIdle(a: HeadingAxis, now: real, dts: seq<real>)
    requires !a.turning
    ensures RunTurn(a, now, dts) == a
    decreases |dts|
  {
    if |dts| > 0 {
      RunTurnIdle(a, now + dts[0], dts[1..]);
    }
  }

  /** While every tick falls inside the bank delay, the heading does not move. */
  lemma {:induction false} TurnHeldDuringDelay(a: HeadingAxis, now: real, dts: seq<real>)
    requires NonNegative(dts)
    requires now + Sum(dts) - a.start < a.delay
    ensures RunTurn(a, now, dts) == a
    decreases |dts|
  {
    if |dts| > 0 {
      SumNonNegative(dts[1..]);
      assert now + dts[0] - a.start < a.delay;
      TurnHeldDuringDelay(a, now + dts[0], dts[1..]);
    }
  }

  /**
   * Once the delay has passed, a run of ticks turns the aircraft at exactly
   * `TurnRate`: while the turn is still pending the remaining angle is the
   * initial one less `TurnRate` times the elapsed time, and it is still positive;
   * once the turn ends the heading is exactly the target. So a turn that is
   * still pending after at least one tick has taken less than |initial| / TurnRate
   * seconds, and after that it is complete.
   */
  lemma {:induction false} TurnConverges(a: HeadingAxis, now: real, dts: seq<real>)
    requires a.turning && now - a.start >= a.delay
    requires OnCompass(a) && NonNegative(dts)
    ensures var r := RunTurn(a, now, dts);
      OnCompass(r) && r.target == a.target &&
      (!r.turning ==> r.heading == a.target) &&
      (r.turning ==>
        Abs(AngleDifference(r.heading, r.target)) == Abs(AngleDifference(a.heading, a.target)) - TurnRate * Sum(dts)) &&
      (r.turning && |dts| > 0 ==> TurnRate * Sum(dts) < Abs(AngleDifference(a.heading, a.target)))
    decreases |dts|
  {
    if |dts| > 0 {
      var next := now + dts[0];
      var a1 := TurnStep(a, dts[0], next);
      TurnStepProgress(a, dts[0], next);
      if a1.turning {
        TurnConverges(a1, next, dts[1..]);
      } else {
        RunTurnIdle(a1, next, dts[1..]);
      }
    }
  }

  // ---------------------------------------------------------------------
  // Airspeed axis
  // ---------------------------------------------------------------------

  /** `setTAS`: the target is taken as given, and the change is pending for the same bank delay. */
  function SetTas(a: SpeedAxis, newTas: real, now: real): (r: SpeedAxis)
    ensures r.tas == a.tas && r.target == newTas
    ensures r.changing && r.start == now && r.delay == BankDelay
  {
    a.(target := newTas, changing := true, start := now, delay := BankDelay)
  }

  /**
   * The airspeed branch of `update`: nothing while idle or inside the delay;
   * a snap to the target once `AccelTime` seconds have passed since the delay
   * ended; otherwise a step of `(target - tas) / AccelTime * dt`, the gap being
   * measured afresh each tick.
   */
  function SpeedStep(a: SpeedAxis, dt: real, now: real): (r: SpeedAxis)
    ensures r.target == a.target && r.start == a.start && r.delay == a.delay
    ensures !a.changing || now - a.start < a.delay ==> r == a
    ensures r.changing ==> a.changing
  {
    if !a.changing || now - a.start < a.delay then a
    else if now - a.start - a.delay >= AccelTime then a.(tas := a.target, changing := false)
    else a.(tas := a.tas + (a.target - a.tas) / AccelTime * dt)
  }

  lemma ScaledGap(g: real, f: real)
    requires 0.0 <= f <= 1.0
    ensures Between(0.0, g, g * f)
  {
    if g >= 0.0 {
      assert g * f <= g * 1.0;
    } else {
      assert g * f >= g * 1.0;
    }
  }

  /**
   * One tick after the delay: inside the acceleration window the gap to the
   * target shrinks by the factor `1 - dt / AccelTime` (a geometric approach,
   * never overshooting); at or after the end of the window the airspeed is
   * exactly the target and the change is over.
   */
  lemma SpeedStepProgress(a: SpeedAxis, dt: real, now: real)
    requires a.changing && now - a.start >= a.delay
    requires 0.0 <= dt <= AccelTime
    ensures var r := SpeedStep(a, dt, now);
      Between(a.tas, a.target, r.tas) &&
      (now - a.start - a.delay < AccelTime ==>
        r.changing && a.target - r.tas == (a.target - a.tas) * (1.0 - dt / AccelTime)) &&
      (now - a.start - a.delay >= AccelTime ==> !r.changing && r.tas == a.target)
  {
    if now - a.start - a.delay < AccelTime {
      var g := a.target - a.tas;
      var f := dt / AccelTime;
      assert g / AccelTime * dt == g * f;
      ScaledGap(g, f);
    }
  }

  /** The airspeed axis over a run of ticks, the clock starting at `now`. */
  function RunSpeed(a: SpeedAxis, now: real, dts: seq<real>): (r: SpeedAxis)
    decreases |dts|
  {
    if |dts| == 0 then a else RunSpeed(SpeedStep(a, dts[0], now + dts[0]), now + dts[0], dts[1..])
  }

  predicate ValidTicks(dts: seq<real>) {
    forall i :: 0 <= i < |dts| ==> 0.0 <= dts[i] <= MaxTick
  }

  lemma {:induction false} RunSpeedIdle(a: SpeedAxis, now: real, dts: seq<real>)
    requires !a.changing
    ensures RunSpeed(a, now, dts) == a
    decreases |dts|
  {
    if |dts| > 0 {
      RunSpeedIdle(a, now + dts[0], dts[1..]);
    }
  }

  lemma BetweenNarrows(a: real, t: real, x: real, y: real)
    requires Between(a, t, x) && Between(x, t, y)
    ensures Between(a, t, y)
  {
  }

  /**
   * Over any run of game-loop ticks the airspeed stays between its value at the
   * start and the target; and if the clock reaches the end of the acceleration
   * window (delay plus `AccelTime` after the command) on some tick, the change
   * is over with the airspeed exactly on target.
   */
  lemma {:induction false} SpeedSettles(a: SpeedAxis, now: real, dts: seq<real>)
    requires ValidTicks(dts)
    ensures var r := RunSpeed(a, now, dts);
      r.target == a.target &&
      Between(a.tas, a.target, r.tas) &&
      (|dts| > 0 && now + Sum(dts) - a.start - a.delay >= AccelTime ==>
        !r.changing && (a.changing ==> r.tas == a.target))
    decreases |dts|
  {
    if |dts| > 0 {
      var next := now + dts[0];
      var a1 := SpeedStep(a, dts[0], next);
      if a.changing && next - a.start >= a.delay {
        SpeedStepProgress(a, dts[0], next);
      }
      assert Between(a.tas, a.target, a1.tas);
      if |dts| == 1 {
        assert dts[1..] == [];
        assert Sum(dts) == dts[0];
        assert RunSpeed(a, now, dts) == a1;
      } else {
        SpeedSettles(a1, next, dts[1..]);
        BetweenNarrows(a.tas, a.target, a1.tas, RunSpeed(a, now, dts).tas);
        if a.changing && !a1.changing {
          RunSpeedIdle(a1, next, dts[1..]);
        }
      }
    }
  }

  // ---------------------------------------------------------------------
  // Whole aircraft
  // ---------------------------------------------------------------------

  /**
   * `update`: the two axes step independently; the actual wind and the track
   * and ground speed solved from it are stored. Position is not touched here.
   */
  function Update(ac: AircraftState, dt: real, now: real, windDir: real, windSpd: real,
                  track: int, groundSpeed: int): (r: AircraftState)
    ensures r.x == ac.x && r.y == ac.y && r.history == ac.history
    ensures r.windDir == windDir && r.windSpd == windSpd && r.track == track && r.groundSpeed == groundSpeed
    ensures r.turn == TurnStep(ac.turn, dt, now) && r.speed == SpeedStep(ac.speed, dt, now)
    ensures r.turn.target == ac.turn.target && r.speed.target == ac.speed.target
  {
    ac.(turn := TurnStep(ac.turn, dt, now), speed := SpeedStep(ac.speed, dt, now),
        windDir := windDir, windSpd := windSpd, track := track, groundSpeed := groundSpeed)
  }

  // ---------------------------------------------------------------------
  // Position history
  // ---------------------------------------------------------------------

  /** Sample `i` was taken a second or more after the one before it. */
  predicate SpacedAt(s: seq<Sample>, i: int)
    requires 0 < i < |s|
  {
    s[i - 1].time + HistoryInterval <= s[i].time
  }

  /** At most one hour of samples, a second or more apart, the newest stamped with the last save time. */
  predicate HistoryInv(h: History) {
    && |h.samples| <= HistoryLimit
    && (forall i :: 0 < i < |h.samples| ==> SpacedAt(h.samples, i))
    && (|h.samples| > 0 ==> h.samples[|h.samples| - 1].time == h.lastSave)
  }

  /**
   * `saveHistory`: when a second or more has passed since the last save, the
   * position is appended and the oldest sample is dropped beyond the limit;
   * otherwise nothing changes.
   */
  function SaveHistory(h: History, x: real, y: real, now: real): (r: History)
    ensures now - h.lastSave < HistoryInterval ==> r == h
    ensures now - h.lastSave >= HistoryInterval ==> r.lastSave == now && |r.samples| > 0 && r.samples[|r.samples| - 1] == Sample(x, y, now)
  {
    if now - h.lastSave >= HistoryInterval then
      var s := h.samples + [Sample(x, y, now)];
      History(if |s| > HistoryLimit then s[1..] else s, now)
    else h
  }

  /**
   * A save less than a second after the last leaves the history alone; otherwise
   * the position, stamped `now`, becomes the newest sample, and the samples are
   * the old ones plus it with the oldest dropped once there would be more than
   * `HistoryLimit`.
   */
  lemma SaveHistorySaves(h: History, x: real, y: real, now: real)
    ensures var r := SaveHistory(h, x, y, now);
      && (now - h.lastSave < HistoryInterval ==> r == h)
      && (now - h.lastSave >= HistoryInterval ==>
            && r.lastSave == now
            && 1 <= |r.samples| <= |h.samples| + 1 && r.samples[|r.samples| - 1] == Sample(x, y, now)
            && r.samples == (h.samples + [Sample(x, y, now)])[|h.samples| + 1 - |r.samples|..]
            && (|h.samples| <= HistoryLimit ==>
                  |r.samples| == if |h.samples| < HistoryLimit then |h.samples| + 1 else HistoryLimit))
  {
  }

  /** Saving keeps the history bounded, time-ordered with one-second gaps, and ending at the last save. */
  lemma SaveHistoryInv(h: History, x: real, y: real, now: real)
    requires HistoryInv(h)
    ensures HistoryInv(SaveHistory(h, x, y, now))
  {
    if now - h.lastSave >= HistoryInterval {
      var s := h.samples + [Sample(x, y, now)];
      var k := if |s| > HistoryLimit then 1 else 0;
      var rs := s[k..];
      assert SaveHistory(h, x, y, now) == History(rs, now);
      forall i | 0 < i < |rs|
        ensures SpacedAt(rs, i)
      {
        assert rs[i] == s[k + i] && rs[i - 1] == s[k + i - 1];
        if k + i < |h.samples| {
          assert SpacedAt(h.samples, k + i);
          assert s[k + i] == h.samples[k + i] && s[k + i - 1] == h.samples[k + i - 1];
        } else {
          assert s[k + i] == Sample(x, y, now);
          assert s[k + i - 1] == h.samples[|h.samples| - 1];
        }
      }
      assert rs[|rs| - 1] == Sample(x, y, now);
    }
  }

  /** The most recent `HistoryLimit` entries of a sequence of samples. */
  function Recent(all: seq<Sample>): (r: seq<Sample>)
    ensures |r| <= HistoryLimit
  {
    if |all| <= HistoryLimit then all else all[|all| - HistoryLimit..]
  }

  /** The history over a run of ticks, each giving the position at its clock time. */
  function RunHistory(h: History, ticks: seq<Sample>): (r: History)
    decreases |ticks|
  {
    if |ticks| == 0 then h
    else RunHistory(SaveHistory(h, ticks[0].x, ticks[0].y, ticks[0].time), ticks[1..])
  }

  /** The samples a run of ticks saves, with nothing ever dropped. */
  function Saved(h: History, ticks: seq<Sample>): (saved: seq<Sample>)
    decreases |ticks|
  {
    if |ticks| == 0 then []
    else
      var t := ticks[0];
      (if t.time - h.lastSave >= HistoryInterval then [t] else [])
        + Saved(SaveHistory(h, t.x, t.y, t.time), ticks[1..])
  }

  lemma RecentAppend(all: seq<Sample>, s: Sample)
    ensures Recent(all + [s]) == (Recent(all) + [s])[|Recent(all)| + 1 - |Recent(all + [s])|..]
  {
  }

  /** One save keeps the bounded history equal to the most recent part of everything saved. */
  lemma SaveKeepsRecent(h: History, all: seq<Sample>, t: Sample)
    requires h.samples == Recent(all)
    ensures SaveHistory(h, t.x, t.y, t.time).samples ==
      Recent(if t.time - h.lastSave >= HistoryInterval then all + [t] else all)
  {
    if t.time - h.lastSave >= HistoryInterval {
      assert t == Sample(t.x, t.y, t.time);
      RecentAppend(all, t);
    }
  }

  /**
   * However many samples a run of ticks saves, the bounded history holds exactly
   * the most recent `HistoryLimit` of everything saved, oldest first.
   */
  lemma {:induction false} HistoryKeepsMostRecent(h: History, all: seq<Sample>, ticks: seq<Sample>)
    requires h.samples == Recent(all)
    ensures RunHistory(h, ticks).samples == Recent(all + Saved(h, ticks))
    decreases |ticks|
  {
    if |ticks| > 0 {
      var t := ticks[0];
      var h1 := SaveHistory(h, t.x, t.y, t.time);
      var now1 := if t.time - h.lastSave >= HistoryInterval then [t] else [];
      var all1 := all + now1;
      var rest := Saved(h1, ticks[1..]);
      SaveKeepsRecent(h, all, t);
      HistoryKeepsMostRecent(h1, all1, ticks[1..]);
      FirstTick(h, ticks);
      assert all + (now1 + rest) == all1 + rest;
    }
  }

  /** The run of ticks after its first: what is left to run, and what the first one saved. */
  lemma FirstTick(h: History, ticks: seq<Sample>)
    requires |ticks| > 0
    ensures var t := ticks[0];
      var h1 := SaveHistory(h, t.x, t.y, t.time);
      && RunHistory(h, ticks) == RunHistory(h1, ticks[1..])
      && Saved(h, ticks) == (if t.time - h.lastSave >= HistoryInterval then [t] else []) + Saved(h1, ticks[1..])
  {
  }
}

=== FILE: angles.dfy ===
/**
 * Angle and unit arithmetic of the navigation library: compass normalisation,
 * the signed shortest turn, magnetic/true conversion and the divide-by-zero
 * guarded time-from-distance helpers.
 */
module Angles {
  import opened Numeric

  /** Magnetic variation of the training area, 8 degrees west: true = magnetic - 8. */
  const MagneticVariation: int := 8

  /** `k` whole turns, in degrees. */
  function Turns(k: int): (t: real) {
    360.0 * k as real
  }

  /** `a` and `b` point the same way: they differ by a whole number of turns. */
  ghost predicate SameBearing(a: real, b: real) {
    exists k: int :: a - b == Turns(k)
  }

  lemma SameBearingBy(a: real, b: real, k: int)
    requires a - b == Turns(k)
    ensures SameBearing(a, b)
  {
  }

  lemma SameBearingSymmetric(a: real, b: real)
    requires SameBearing(a, b)
    ensures SameBearing(b, a)
  {
    var k :| a - b == Turns(k);
    SameBearingBy(b, a, -k);
  }

  lemma SameBearingTransitive(a: real, b: real, c: real)
    requires SameBearing(a, b) && SameBearing(b, c)
    ensures SameBearing(a, c)
  {
    var k :| a - b == Turns(k);
    var j :| b - c == Turns(j);
    SameBearingBy(a, c, k + j);
  }

  /** Turning both directions by the same amount keeps them aligned. */
  lemma SameBearingShift(a: real, b: real, c: real)
    requires SameBearing(a, b)
    ensures SameBearing(a + c, b + c)
  {
    var k :| a - b == Turns(k);
    SameBearingBy(a + c, b + c, k);
  }

  /** Two aligned directions less than a full turn apart are equal. */
  lemma SameBearingClose(a: real, b: real)
    requires SameBearing(a, b)
    requires -360.0 < a - b < 360.0
    ensures a == b
  {
    var k :| a - b == Turns(k);
  }

  /** `normalizeAngle`: JavaScript `%` by 360, then one turn added to a negative remainder. */
  function NormalizeAngle(a: real): (r: real)
    ensures 0.0 <= r < 360.0
    ensures SameBearing(r, a)
    ensures 0.0 <= a < 360.0 ==> r == a
  {
    var t := Trunc(a / 360.0);
    var m := a - Turns(t);
    var r := if m < 0.0 then m + 360.0 else m;
    assert r - a == Turns(if m < 0.0 then 1 - t else -t);
    r
  }

  /** Aligned directions normalise to the same compass value: the result is canonical. */
  lemma NormalizeCanonical(a: real, b: real)
    requires SameBearing(a, b)
    ensures NormalizeAngle(a) == NormalizeAngle(b)
  {
    var ra, rb := NormalizeAngle(a), NormalizeAngle(b);
    SameBearingTransitive(ra, a, b);
    SameBearingSymmetric(rb, b);
    SameBearingTransitive(ra, b, rb);
    SameBearingClose(ra, rb);
  }

  /** Normalising twice is normalising once. */
  lemma NormalizeIdempotent(a: real)
    ensures NormalizeAngle(NormalizeAngle(a)) == NormalizeAngle(a)
  {
  }

  /** A whole number of degrees normalises to its Euclidean residue modulo 360. */
  lemma NormalizeWhole(k: int)
    ensures NormalizeAngle(k as real) == (k % 360) as real
  {
    var q := k / 360;
    assert k == 360 * q + k % 360;
    assert (k % 360) as real - k as real == Turns(-q);
    SameBearingBy((k % 360) as real, k as real, -q);
    NormalizeCanonical((k % 360) as real, k as real);
  }

  /**
   * `angleDifference`: the signed turn from `from` to `to`, positive to the right.
   * The raw difference is wrapped once in each direction, so an exact half turn
   * is returned as it is, +180 or -180.
   */
  function AngleDifference(from: real, to: real): (r: real)
    ensures SameBearing(r, to - from)
    ensures -540.0 <= to - from <= 540.0 ==> -180.0 <= r <= 180.0
    ensures to - from == 180.0 ==> r == 180.0
    ensures to - from == -180.0 ==> r == -180.0
  {
    var d := to - from;
    var d1 := if d > 180.0 then d - 360.0 else d;
    var r := if d1 < -180.0 then d1 + 360.0 else d1;
    assert r - d == Turns(if d > 180.0 then -1 else if d < -180.0 then 1 else 0);
    r
  }

  /** No other rotation that ends at the same direction is shorter. */
  lemma AngleDifferenceIsShortest(from: real, to: real, x: real)
    requires -540.0 <= to - from <= 540.0
    requires SameBearing(x, to - from)
    ensures Abs(AngleDifference(from, to)) <= Abs(x)
  {
    var r := AngleDifference(from, to);
    SameBearingSymmetric(r, to - from);
    SameBearingTransitive(x, to - from, r);
    var k :| x - r == Turns(k);
    if k >= 1 {
      assert Turns(k) >= 360.0;
    } else if k <= -1 {
      assert Turns(k) <= -360.0;
    }
  }

  /** Strictly inside a half turn, the aligned rotation is the only one the function can return. */
  lemma AngleDifferenceUnique(from: real, to: real, x: real)
    requires -540.0 <= to - from <= 540.0
    requires SameBearing(x, to - from)
    requires -180.0 < x < 180.0
    ensures AngleDifference(from, to) == x
  {
    var r := AngleDifference(from, to);
    SameBearingSymmetric(r, to - from);
    SameBearingTransitive(x, to - from, r);
    SameBearingClose(x, r);
  }

  /** Turning a direction by less than a half turn and normalising: the signed difference is the turn. */
  lemma ShiftedDifference(base: real, turn: real)
    ensures 0.0 <= base <= 360.0 && -180.0 < turn < 180.0 ==> AngleDifference(base, NormalizeAngle(base + turn)) == turn
  {
    if 0.0 <= base <= 360.0 && -180.0 < turn < 180.0 {
      var dir := NormalizeAngle(base + turn);
      SameBearingShift(dir, base + turn, -base);
      SameBearingSymmetric(dir + -base, base + turn + -base);
      AngleDifferenceUnique(base, dir, turn);
    }
  }

  /** `magneticToTrue` */
  function MagneticToTrue(magnetic: real): (t: real)
    ensures TrueToMagnetic(t) == magnetic
  {
    magnetic - MagneticVariation as real
  }

  /** `trueToMagnetic` */
  function TrueToMagnetic(trueValue: real): (m: real) {
    trueValue + MagneticVariation as real
  }

  /** The two conversions undo each other in both orders. */
  lemma VariationRoundTrip(x: real)
    ensures MagneticToTrue(TrueToMagnetic(x)) == x
    ensures TrueToMagnetic(MagneticToTrue(x)) == x
  {
  }

  /**
   * `calculateETE`: minutes to fly `distance` nautical miles at `groundSpeed` knots,
   * rounded to the nearest minute; a zero ground speed yields zero rather than a
   * division by zero.
   */
  function CalculateEte(distance: real, groundSpeed: real): (minutes: int)
    ensures groundSpeed == 0.0 ==> minutes == 0
    ensures groundSpeed != 0.0 ==>
      distance / groundSpeed * 60.0 - 0.5 < minutes as real <= distance / groundSpeed * 60.0 + 0.5
    ensures distance >= 0.0 && groundSpeed >= 0.0 ==> minutes >= 0
  {
    if groundSpeed == 0.0 then 0
    else
      var exact := distance / groundSpeed * 60.0;
      assert distance >= 0.0 && groundSpeed >= 0.0 ==> exact >= 0.0;
      Round(exact)
  }

  /** `calculateTime`: the MB-4 calculator's time from distance and speed, with the same zero guard. */
  function CalculateTime(distance: real, speed: real): (minutes: int)
    ensures speed == 0.0 ==> minutes == 0
    ensures speed != 0.0 ==> distance / speed * 60.0 - 0.5 < minutes as real <= distance / speed * 60.0 + 0.5
    ensures distance >= 0.0 && speed > 0.0 ==> minutes >= 0
  {
    if speed == 0.0 then 0
    else
      var exact := (distance / speed) * 60.0;
      assert distance >= 0.0 && speed > 0.0 ==> exact >= 0.0;
      Round(exact)
  }
}

=== FILE: arrival.dfy ===
/**
 * The closest-approach detector behind the ATA column: each waypoint keeps the
 * closest distance seen so far and the time it was seen, and is marked passed
 * the first time the aircraft is found farther away than that. `checkATA` runs
 * the detector for every waypoint of the run's route after its START and
 * writes the time of closest approach into the waypoint's log row.
 */
module Arrival {
  import opened Common
  import opened Numeric
  import opened FlightLog

  /**
   * One waypoint's record. `closest` is `None` for the initial `Infinity`, `time`
   * is `None` for the initial `null`.
   */
  datatype Record = Record(closest: Option<real>, time: Option<real>, passed: bool)

  const Fresh: Record := Record(None, None, false)

  /** `dist < record.closest`, where every distance is nearer than infinity. */
  predicate Nearer(dist: real, closest: Option<real>) {
    closest.None? || dist < closest.value
  }

  /** `dist > record.closest && !record.passed && record.time !== null`. */
  predicate Passing(r: Record, dist: real) {
    r.closest.Some? && dist > r.closest.value && !r.passed && r.time.Some?
  }

  /** `a` is at or below `b`, where `None` is infinity. */
  predicate AtMost(a: Option<real>, b: Option<real>) {
    b.None? || (a.Some? && a.value <= b.value)
  }

  /**
   * One detector step at distance `dist` and time `now`: a nearer distance becomes
   * the closest, with its time, even after the waypoint was passed; a farther one
   * marks a not yet passed waypoint passed; an equal one changes nothing.
   */
  function Step(r: Record, dist: real, now: real): (s: Record)
    ensures s.closest.Some? && AtMost(s.closest, r.closest) && AtMost(s.closest, Some(dist))
    ensures r.passed ==> s.passed
    ensures s.passed != r.passed <==> Passing(r, dist)
    ensures s.time != r.time ==> s.time == Some(now)
    ensures r.closest == Some(dist) ==> s == r
  {
    if Nearer(dist, r.closest) then Record(Some(dist), Some(now), r.passed)
    else if Passing(r, dist) then r.(passed := true)
    else r
  }

  /** A second step at the same distance and time changes nothing. */
  lemma StepTwice(r: Record, dist: real, now: real)
    ensures Step(Step(r, dist, now), dist, now) == Step(r, dist, now)
  {
  }

  /** A position sample: distance to the waypoint in nautical miles and elapsed seconds. */
  datatype Sample = Sample(dist: real, time: real)

  /** The record after stepping through `s` in order. */
  function Run(r: Record, s: seq<Sample>): (out: Record)
    decreases |s|
  {
    if |s| == 0 then r else Step(Run(r, s[..|s| - 1]), s[|s| - 1].dist, s[|s| - 1].time)
  }

  /** How many of the steps through `s` mark the waypoint passed. */
  function Firings(r: Record, s: seq<Sample>): (n: nat)
    decreases |s|
  {
    if |s| == 0 then 0
    else
      var before := Run(r, s[..|s| - 1]);
      Firings(r, s[..|s| - 1]) + (if Passing(before, s[|s| - 1].dist) then 1 else 0)
  }

  /**
   * The detector fires at most once per waypoint, and never for a waypoint
   * already passed; it has fired exactly when the record ends up passed.
   */
  lemma {:induction false} FiresAtMostOnce(r: Record, s: seq<Sample>)
    ensures Firings(r, s) <= (if r.passed then 0 else 1)
    ensures Firings(r, s) == 1 <==> !r.passed && Run(r, s).passed
    ensures r.passed ==> Run(r, s).passed
    decreases |s|
  {
    if |s| > 0 {
      FiresAtMostOnce(r, s[..|s| - 1]);
    }
  }

  /** The least distance among the samples. */
  function MinDist(s: seq<Sample>): (m: real)
    requires |s| > 0
    ensures forall i :: 0 <= i < |s| ==> m <= s[i].dist
    ensures exists i :: 0 <= i < |s| && m == s[i].dist
    decreases |s|
  {
    if |s| == 1 then s[0].dist
    else
      var m := MinDist(s[..|s| - 1]);
      assert forall i :: 0 <= i < |s| - 1 ==> s[..|s| - 1][i] == s[i];
      if s[|s| - 1].dist < m then s[|s| - 1].dist else m
  }

  /** The first sample at the least distance. */
  function FirstClosest(s: seq<Sample>): (k: nat)
    requires |s| > 0
    ensures k < |s| && s[k].dist == MinDist(s)
    ensures forall i :: 0 <= i < k ==> s[i].dist > MinDist(s)
    decreases |s|
  {
    if |s| == 1 then 0
    else
      var p := s[..|s| - 1];
      var k := FirstClosest(p);
      assert forall i :: 0 <= i < |p| ==> p[i] == s[i];
      if s[|s| - 1].dist < MinDist(p) then |s| - 1 else k
  }

  /** Some sample lies farther than the closest one before it. */
  predicate Receded(s: seq<Sample>) {
    exists j :: 1 <= j < |s| && s[j].dist > MinDist(s[..j])
  }

  lemma RecededPrefix(s: seq<Sample>)
    requires |s| > 1
    ensures Receded(s) <==> Receded(s[..|s| - 1]) || s[|s| - 1].dist > MinDist(s[..|s| - 1])
  {
    RecededShrink(s);
    RecededGrow(s);
    RecededLast(s);
  }

  lemma RecededShrink(s: seq<Sample>)
    requires |s| > 1
    ensures Receded(s) ==> Receded(s[..|s| - 1]) || s[|s| - 1].dist > MinDist(s[..|s| - 1])
  {
    if Receded(s) {
      var p := s[..|s| - 1];
      var j :| 1 <= j < |s| && s[j].dist > MinDist(s[..j]);
      if j < |p| {
        assert p[..j] == s[..j];
        assert p[j] == s[j];
      } else {
        assert s[..j] == p;
      }
    }
  }

  lemma RecededGrow(s: seq<Sample>)
    requires |s| > 1
    ensures Receded(s[..|s| - 1]) ==> Receded(s)
  {
    var p := s[..|s| - 1];
    if Receded(p) {
      var j :| 1 <= j < |p| && p[j].dist > MinDist(p[..j]);
      assert p[..j] == s[..j];
      assert s[j] == p[j];
    }
  }

  lemma RecededLast(s: seq<Sample>)
    requires |s| > 1
    ensures s[|s| - 1].dist > MinDist(s[..|s| - 1]) ==> Receded(s)
  {
    var j := |s| - 1;
    assert s[..j] == s[..|s| - 1];
  }

  /**
   * From a fresh record, the detector holds the least distance seen and the time
   * of the first sample at that distance.
   */
  lemma {:induction false} RunFromFresh(s: seq<Sample>)
    requires |s| > 0
    ensures Run(Fresh, s).closest == Some(MinDist(s))
    ensures Run(Fresh, s).time == Some(s[FirstClosest(s)].time)
    decreases |s|
  {
    var p := s[..|s| - 1];
    var last := s[|s| - 1];
    assert Run(Fresh, s) == Step(Run(Fresh, p), last.dist, last.time);
    if |s| > 1 {
      RunFromFresh(p);
      if last.dist < MinDist(p) {
        assert MinDist(s) == last.dist;
      } else {
        assert MinDist(s) == MinDist(p);
        assert FirstClosest(s) == FirstClosest(p);
        assert p[FirstClosest(p)] == s[FirstClosest(s)];
      }
    }
  }

  /** From a fresh record, the waypoint is passed exactly when some sample was farther than the closest before it. */
  lemma {:induction false} PassedFromFresh(s: seq<Sample>)
    requires |s| > 0
    ensures Run(Fresh, s).passed <==> Receded(s)
    decreases |s|
  {
    var p := s[..|s| - 1];
    var last := s[|s| - 1];
    assert Run(Fresh, s) == Step(Run(Fresh, p), last.dist, last.time);
    if |s| > 1 {
      PassedFromFresh(p);
      RunFromFresh(p);
      RecededPrefix(s);
    } else {
      assert !Receded(s);
    }
  }

  /** On strictly falling distances the record follows the latest sample and is not passed. */
  lemma {:induction false} FallingRun(s: seq<Sample>)
    requires |s| > 0
    requires forall i :: 0 < i < |s| ==> s[i].dist < s[i - 1].dist
    ensures Run(Fresh, s) == Record(Some(s[|s| - 1].dist), Some(s[|s| - 1].time), false)
    decreases |s|
  {
    var p := s[..|s| - 1];
    assert Run(Fresh, s) == Step(Run(Fresh, p), s[|s| - 1].dist, s[|s| - 1].time);
    if |s| > 1 {
      FallingRun(p);
    }
  }

  /**
   * Distances that fall strictly up to sample `k` and then rise at sample `k + 1`:
   * the waypoint is not passed before the rise, is passed by it, and its time is
   * that of sample `k`, the closest approach.
   */
  lemma DipThenRise(s: seq<Sample>, k: nat)
    requires k + 1 < |s|
    requires forall i :: 0 < i <= k ==> s[i].dist < s[i - 1].dist
    requires s[k + 1].dist > s[k].dist
    ensures !Run(Fresh, s[..k + 1]).passed
    ensures Run(Fresh, s[..k + 2]).passed
    ensures Run(Fresh, s[..k + 2]).time == Some(s[k].time)
  {
    var d := s[..k + 1];
    var e := s[..k + 2];
    FallingRun(d);
    assert e[..k + 1] == d;
    assert Run(Fresh, e) == Step(Run(Fresh, d), s[k + 1].dist, s[k + 1].time);
  }

  // ---------------------------------------------------------------------
  // checkATA
  // ---------------------------------------------------------------------

  /** A waypoint passed during one check: its id and the ATA written for it. */
  datatype Passage = Passage(navaid: string, ata: string)

  datatype AtaState = AtaState(records: map<string, Record>, log: seq<Row>, passages: seq<Passage>)

  /** The ATA cell for a closest approach at `time` seconds: whole minutes, rounded, written with `clock`. */
  function AtaCell(time: real, clock: int -> string): (cell: string) {
    clock(Round(time / 60.0))
  }

  /**
   * One waypoint of the check, at route position `j`: skipped without a position
   * or a record; otherwise its record steps, and when that step marks it passed,
   * row `j` of the log, if there is one, receives the ATA and a passage is noted.
   */
  function Visit(st: AtaState, id: string, j: nat, dist: string -> Option<real>, now: real, clock: int -> string): (out: AtaState)
    ensures out.records.Keys == st.records.Keys && |out.log| == |st.log|
  {
    if dist(id).None? || id !in st.records then st
    else
      var r := st.records[id];
      var d := dist(id).value;
      var records := st.records[id := Step(r, d, now)];
      if Passing(r, d) && j < |st.log| then
        var ata := AtaCell(r.time.value, clock);
        AtaState(records, st.log[j := st.log[j].(ata := ata)], st.passages + [Passage(id, ata)])
      else
        AtaState(records, st.log, st.passages)
  }

  function CheckFrom(route: seq<string>, j: nat, st: AtaState, dist: string -> Option<real>, now: real, clock: int -> string): (out: AtaState)
    ensures out.records.Keys == st.records.Keys && |out.log| == |st.log|
    decreases |route| - j
  {
    if j >= |route| then st
    else CheckFrom(route, j + 1, Visit(st, route[j], j, dist, now, clock), dist, now, clock)
  }

  /**
   * `checkATA`: the detector for every waypoint of `route` after its START, in
   * route order, at the distances of this frame; route position `j` is log
   * row `j`. A route of START alone checks nothing.
   */
  function CheckAta(route: seq<string>, st: AtaState, dist: string -> Option<real>, now: real, clock: int -> string): (out: AtaState)
    ensures out.records.Keys == st.records.Keys && |out.log| == |st.log|
    ensures |route| <= 1 ==> out == st
  {
    CheckFrom(route, 1, st, dist, now, clock)
  }

  /** `id` occurs in the route at or after position `j`. */
  predicate VisitedFrom(route: seq<string>, j: nat, id: string) {
    exists i :: j <= i < |route| && route[i] == id
  }

  /** What one check does to a record: one step if the route visits the waypoint and it has a position. */
  function Checked(route: seq<string>, j: nat, records: map<string, Record>, id: string, dist: string -> Option<real>, now: real): (rec: Record)
    requires id in records
  {
    if VisitedFrom(route, j, id) && dist(id).Some? then Step(records[id], dist(id).value, now) else records[id]
  }

  /**
   * Each record is stepped once per check if the route visits its waypoint,
   * however often it does, and is left alone otherwise.
   */
  lemma {:induction false} CheckFromRecords(route: seq<string>, j: nat, st: AtaState, dist: string -> Option<real>, now: real, clock: int -> string)
    ensures forall id :: id in st.records ==>
      CheckFrom(route, j, st, dist, now, clock).records[id] == Checked(route, j, st.records, id, dist, now)
    decreases |route| - j
  {
    if j < |route| {
      var next := Visit(st, route[j], j, dist, now, clock);
      CheckFromRecords(route, j + 1, next, dist, now, clock);
      forall id | id in st.records
        ensures CheckFrom(route, j, st, dist, now, clock).records[id] == Checked(route, j, st.records, id, dist, now)
      {
        if id == route[j] && dist(id).Some? {
          StepTwice(st.records[id], dist(id).value, now);
          assert VisitedFrom(route, j, id);
        } else if VisitedFrom(route, j, id) {
          var i :| j <= i < |route| && route[i] == id;
          assert i != j || dist(id).None?;
          if dist(id).Some? {
            assert VisitedFrom(route, j + 1, id);
          }
        } else {
          assert !VisitedFrom(route, j + 1, id);
        }
      }
    }
  }

  lemma CheckAtaRecords(route: seq<string>, st: AtaState, dist: string -> Option<real>, now: real, clock: int -> string)
    ensures forall id :: id in st.records ==>
      CheckAta(route, st, dist, now, clock).records[id] == Checked(route, 1, st.records, id, dist, now)
  {
    CheckFromRecords(route, 1, st, dist, now, clock);
  }

  /** A step that marks nothing passed leaves the waypoint not passing at the same distance. */
  lemma StepNotPassingAgain(r: Record, dist: real, now: real)
    ensures !Passing(Step(r, dist, now), dist)
  {
  }

  /** No route position from `j` up to `i` names the waypoint at `i`: `i` is its first visit from `j` on. */
  predicate FirstFrom(route: seq<string>, j: nat, i: nat)
    requires i < |route|
  {
    forall k :: j <= k < i ==> route[k] != route[i]
  }

  /** The check marks waypoint `id` passed this frame. */
  predicate Writes(records: map<string, Record>, id: string, dist: string -> Option<real>) {
    id in records && dist(id).Some? && Passing(records[id], dist(id).value)
  }

  /** Row `i` after the check from position `j`: the ATA is written exactly at the first visit of a waypoint the check marks passed. */
  function CheckedRow(route: seq<string>, j: nat, st: AtaState, i: nat, dist: string -> Option<real>, clock: int -> string): (row: Row)
    requires i < |st.log|
  {
    if j <= i < |route| && FirstFrom(route, j, i) && Writes(st.records, route[i], dist)
    then st.log[i].(ata := AtaCell(st.records[route[i]].time.value, clock))
    else st.log[i]
  }

  lemma {:induction false} CheckFromLog(route: seq<string>, j: nat, st: AtaState, dist: string -> Option<real>, now: real, clock: int -> string)
    ensures forall i :: 0 <= i < |st.log| ==>
      CheckFrom(route, j, st, dist, now, clock).log[i] == CheckedRow(route, j, st, i, dist, clock)
    decreases |route| - j
  {
    if j < |route| {
      var next := Visit(st, route[j], j, dist, now, clock);
      CheckFromLog(route, j + 1, next, dist, now, clock);
      if route[j] in st.records && dist(route[j]).Some? {
        StepNotPassingAgain(st.records[route[j]], dist(route[j]).value, now);
      }
      forall i | 0 <= i < |st.log|
        ensures CheckFrom(route, j, st, dist, now, clock).log[i] == CheckedRow(route, j, st, i, dist, clock)
      {
        if j < i < |route| {
          if route[i] == route[j] {
            assert !FirstFrom(route, j, i);
          } else {
            assert FirstFrom(route, j, i) == FirstFrom(route, j + 1, i);
          }
        }
      }
    }
  }

  /**
   * `checkATA` writes a waypoint's ATA, the rounded minute of its closest approach,
   * into the row of its first visit after START, and only when this frame marks
   * it passed; it changes nothing else in the log. A waypoint the route repeats
   * therefore never has its ATA written into its later rows.
   */
  lemma CheckAtaLog(route: seq<string>, st: AtaState, dist: string -> Option<real>, now: real, clock: int -> string)
    ensures forall i :: 0 <= i < |st.log| ==>
      CheckAta(route, st, dist, now, clock).log[i] == CheckedRow(route, 1, st, i, dist, clock)
  {
    CheckFromLog(route, 1, st, dist, now, clock);
  }

  /**
   * The passages a check from position `j` notes at positions `i` and later, in
   * route order: one per first visit that the check marks passed and that has a
   * log row.
   */
  function Noted(route: seq<string>, j: nat, i: nat, st: AtaState, dist: string -> Option<real>, clock: int -> string): (noted: seq<Passage>)
    decreases |route| - i
  {
    if i >= |route| then []
    else
      var here := if i < |st.log| && FirstFrom(route, j, i) && Writes(st.records, route[i], dist)
        then [Passage(route[i], AtaCell(st.records[route[i]].time.value, clock))] else [];
      here + Noted(route, j, i + 1, st, dist, clock)
  }

  /** Past the position just visited, the check from `j + 1` on the new state notes what the check from `j` would. */
  lemma {:induction false} NotedShift(route: seq<string>, j: nat, i: nat, st: AtaState, dist: string -> Option<real>, now: real, clock: int -> string)
    requires j < |route| && j < i
    ensures Noted(route, j + 1, i, Visit(st, route[j], j, dist, now, clock), dist, clock) == Noted(route, j, i, st, dist, clock)
    decreases |route| - i
  {
    var next := Visit(st, route[j], j, dist, now, clock);
    if i < |route| {
      NotedShift(route, j, i + 1, st, dist, now, clock);
      if route[j] in st.records && dist(route[j]).Some? {
        StepNotPassingAgain(st.records[route[j]], dist(route[j]).value, now);
      }
      if route[i] == route[j] {
        assert !FirstFrom(route, j, i);
      } else {
        assert FirstFrom(route, j, i) == FirstFrom(route, j + 1, i);
      }
    }
  }

  lemma {:induction false} CheckFromPassages(route: seq<string>, j: nat, st: AtaState, dist: string -> Option<real>, now: real, clock: int -> string)
    ensures CheckFrom(route, j, st, dist, now, clock).passages == st.passages + Noted(route, j, j, st, dist, clock)
    decreases |route| - j
  {
    if j < |route| {
      var next := Visit(st, route[j], j, dist, now, clock);
      CheckFromPassages(route, j + 1, next, dist, now, clock);
      NotedShift(route, j, j + 1, st, dist, now, clock);
      assert FirstFrom(route, j, j);
    }
  }

  /**
   * `checkATA` appends one passage per waypoint whose ATA it writes, in route
   * order, naming the waypoint and the ATA written, and keeps the earlier ones.
   */
  lemma CheckAtaPassages(route: seq<string>, st: AtaState, dist: string -> Option<real>, now: real, clock: int -> string)
    ensures CheckAta(route, st, dist, now, clock).passages == st.passages + Noted(route, 1, 1, st, dist, clock)
  {
    CheckFromPassages(route, 1, st, dist, now, clock);
  }
}

=== FILE: common.dfy ===
/** Failure-carrying wrappers shared by the whole model. */
module Common {

  /** An optional value; `None` stands for JavaScript's `null`/`undefined`. */
  datatype Option<+T> = None | Some(value: T)

  /** The outcome of an operation that either produces a value or rejects its input. */
  datatype Result<+T, +E> = Ok(value: T) | Err(error: E)
}

=== FILE: flightlog.dfy ===
/**
 * The flight log: one START row and one row per leg, written from the legs and
 * the wind triangle, then kept current by the ETA refresh that reads every ETE
 * cell back and writes the running total into the ETA column.
 */
module FlightLog {
  import opened Common
  import opened Numeric
  import opened Text
  import opened Angles
  import opened TimeFormat

  /** A leg of a route: magnetic course in whole degrees and distance in nautical miles. */
  datatype Leg = Leg(from: string, to: string, mc: int, distance: real)

  /** What the wind triangle returns for one course: rounded magnetic heading and ground speed. */
  datatype Solution = Solution(heading: int, groundSpeed: int)

  /**
   * The wind triangle for the planned TAS and wind, as a function of the magnetic
   * course. Its trigonometry is not part of this model.
   */
  type Solver = int -> Solution

  /**
   * A log row. The time columns are the text the table shows, since the ETA
   * refresh reads them back; the course, heading, drift and speed columns keep
   * the integer the table shows through `Pad3` or `SignedText`, and the distance
   * its number, `None` standing for the START row's `-`.
   */
  datatype Row = Row(
    remark: string, navaid: string,
    tc: Option<int>, mc: Option<int>, th: Option<int>, mh: Option<int>,
    da: Option<int>, gs: Option<int>, dist: Option<real>,
    ete: string, eta: string, ata: string)

  const Dash: string := "-"

  /** The legs of the default KWA - TGU - PSN - KWA triangle. */
  const DefaultLegs: seq<Leg> := [
    Leg("KWA", "TGU", 72, 97.0),
    Leg("TGU", "PSN", 162, 45.0),
    Leg("PSN", "KWA", 277, 111.0)
  ]

  const DefaultRemarks: seq<string> := ["1", "2", "END"]

  /** A course or heading column: the integer padded to three characters with zeros. */
  function Pad3(i: int): (s: string) {
    PadStart(ShowInt(i), 3, '0')
  }

  /** The drift-angle column: a `+` in front of a non-negative value, the minus sign otherwise. */
  function SignedText(i: int): (s: string) {
    (if i >= 0 then "+" else "") + ShowInt(i)
  }

  /** A course or heading of 0 or more degrees is at least three characters and reads back as itself. */
  lemma Pad3ReadsBack(i: int)
    requires i >= 0
    ensures |Pad3(i)| >= 3 && ParseInt(Pad3(i)) == Some(i)
  {
    ParsePaddedNat(i, 3);
  }

  /** The drift-angle text starts with `+` exactly when the value is non-negative, and reads back as it. */
  lemma SignedTextReadsBack(i: int)
    ensures |SignedText(i)| > 0 && (SignedText(i)[0] == '+' <==> i >= 0)
    ensures ParseInt(SignedText(i)) == Some(i)
  {
    if i >= 0 {
      assert SignedText(i) == "+" + ShowNat(i);
      ParsePlusSigned(i);
    } else {
      assert SignedText(i) == ShowInt(i);
      ParsePaddedInt(i, 0);
      assert PadStart(ShowInt(i), 0, '0') == ShowInt(i);
    }
  }

  function StartRow(navaid: string): (row: Row) {
    Row("START", navaid, None, None, None, None, None, None, None, Dash, Dash, Dash)
  }

  /** The planned ETE of a leg, in minutes, at the ground speed the wind triangle gives. */
  function LegEte(leg: Leg, solve: Solver): (minutes: int) {
    CalculateEte(leg.distance, solve(leg.mc).groundSpeed as real)
  }

  /** A magnetic direction in whole degrees as the log shows it true: less the variation, normalised, rounded. */
  function TrueDirection(magnetic: int): (t: int) {
    Round(NormalizeAngle((magnetic - MagneticVariation) as real))
  }

  /** The true direction of a whole magnetic direction is the Euclidean residue of magnetic minus 8 modulo 360. */
  lemma TrueDirectionResidue(magnetic: int)
    ensures TrueDirection(magnetic) == (magnetic - MagneticVariation) % 360
    ensures 0 <= TrueDirection(magnetic) < 360
  {
    NormalizeWhole(magnetic - MagneticVariation);
    RoundWhole((magnetic - MagneticVariation) % 360);
  }

  /**
   * The row for one leg: the true course is the magnetic course less the 8 degree
   * variation, taken into 0..359; the heading is the wind-corrected magnetic
   * heading and its true value likewise; the drift angle is course minus heading,
   * not normalised; then ground speed, distance, and the ETE written with `clock`;
   * ETA and ATA still open.
   */
  function LegRow(remark: string, leg: Leg, solve: Solver, clock: int -> string): (row: Row)
    ensures row.remark == remark && row.navaid == leg.to && row.dist == Some(leg.distance)
    ensures row.eta == Dash && row.ata == Dash
  {
    var sol := solve(leg.mc);
    Row(remark, leg.to,
        Some(TrueDirection(leg.mc)), Some(leg.mc), Some(TrueDirection(sol.heading)), Some(sol.heading),
        Some(leg.mc - sol.heading), Some(sol.groundSpeed), Some(leg.distance),
        clock(LegEte(leg, solve)), Dash, Dash)
  }

  /**
   * The numbers of a leg row: the true course is the magnetic course less 8,
   * taken into 0..359, and likewise the true heading from the magnetic heading;
   * the drift angle is course minus heading, not normalised, so its text starts
   * with `+` exactly when the heading is not right of the course.
   */
  lemma LegRowColumns(remark: string, leg: Leg, solve: Solver, clock: int -> string)
    ensures var r := LegRow(remark, leg, solve, clock);
      && r.tc == Some((leg.mc - MagneticVariation) % 360)
      && r.th == Some((solve(leg.mc).heading - MagneticVariation) % 360)
      && r.da == Some(leg.mc - solve(leg.mc).heading)
      && (SignedText(r.da.value)[0] == '+' <==> leg.mc >= solve(leg.mc).heading)
  {
    var h := solve(leg.mc).heading;
    var r := LegRow(remark, leg, solve, clock);
    assert r.tc == Some(TrueDirection(leg.mc)) && r.th == Some(TrueDirection(h)) && r.da == Some(leg.mc - h);
    DirectionColumns(leg.mc, h);
  }

  /** The true course and heading of a leg, and the sign of its drift-angle text. */
  lemma DirectionColumns(mc: int, h: int)
    ensures TrueDirection(mc) == (mc - MagneticVariation) % 360
    ensures TrueDirection(h) == (h - MagneticVariation) % 360
    ensures SignedText(mc - h)[0] == '+' <==> mc >= h
  {
    TrueDirectionResidue(mc);
    TrueDirectionResidue(h);
    SignedTextReadsBack(mc - h);
  }

  /**
   * For a non-negative distance at a non-negative ground speed, the ETE is a
   * non-negative number of minutes and the `HH+MM` cell reads back as it.
   */
  lemma LegEteReadsBack(remark: string, leg: Leg, solve: Solver)
    requires leg.distance >= 0.0 && solve(leg.mc).groundSpeed >= 0
    ensures LegEte(leg, solve) >= 0
    ensures ReadMinutes(LegRow(remark, leg, solve, FormatTime).ete) == Some(LegEte(leg, solve))
  {
    FormatTimeRoundTrip(LegEte(leg, solve));
  }

  /**
   * `calculateFlightLog` and `calculateFlightLogCustom`: a START row at the first
   * navaid, then one row per leg, in order, naming the leg's destination and
   * carrying its ETE.
   */
  function BuildLog(start: string, legs: seq<Leg>, remarks: seq<string>, solve: Solver, clock: int -> string): (log: seq<Row>)
    requires |remarks| == |legs|
    ensures |log| == |legs| + 1
    ensures log[0] == StartRow(start)
    ensures forall i :: 1 <= i < |log| ==> log[i] == LegRow(remarks[i - 1], legs[i - 1], solve, clock)
  {
    [StartRow(start)] + seq(|legs|, i requires 0 <= i < |legs| => LegRow(remarks[i], legs[i], solve, clock))
  }

  /** The default log: KWA, then TGU, PSN and KWA with remarks 1, 2 and END, ETEs in `HH+MM`. */
  function DefaultLog(solve: Solver): (log: seq<Row>)
    ensures |log| == 4 && log[0] == StartRow("KWA")
    ensures log[1].navaid == "TGU" && log[2].navaid == "PSN" && log[3].navaid == "KWA"
    ensures log[1].remark == "1" && log[2].remark == "2" && log[3].remark == "END"
  {
    BuildLog("KWA", DefaultLegs, DefaultRemarks, solve, FormatTime)
  }

  /** Remarks `1`, `2`, ... for the legs of a custom route. */
  function Numbered(n: nat): (remarks: seq<string>)
    ensures |remarks| == n
    ensures forall i :: 0 <= i < n ==> remarks[i] == ShowNat(i + 1)
  {
    if n == 0 then [] else Numbered(n - 1) + [ShowNat(n)]
  }

  /** The log of a custom route: START at the route's first navaid, legs numbered from 1. */
  function CustomLog(route: seq<string>, legs: seq<Leg>, solve: Solver): (log: seq<Row>)
    requires |route| >= 1
    ensures |log| == |legs| + 1 && log[0] == StartRow(route[0])
    ensures forall i :: 1 <= i < |log| ==> log[i].remark == ShowNat(i) && log[i].navaid == legs[i - 1].to
  {
    BuildLog(route[0], legs, Numbered(|legs|), solve, FormatTime)
  }

  // ---------------------------------------------------------------------
  // ETA refresh
  // ---------------------------------------------------------------------

  /** A running total of minutes; `None` once a `NaN` has entered it. */
  function AddMinutes(total: Option<int>, m: Option<int>): (sum: Option<int>) {
    if total.Some? && m.Some? then Some(total.value + m.value) else None
  }

  /** `formatTime` of the running total; `NaN` prints as `NaN` in both fields. */
  function ShowTotal(total: Option<int>): (s: string) {
    match total
    case Some(m) => FormatTime(m)
    case None => "NaN+NaN"
  }

  predicate HasEte(r: Row) {
    r.ete != "" && r.ete != Dash
  }

  /**
   * The leg rows of the ETA refresh: each row with an ETE adds the minutes `read`
   * from it to the running total and shows the total, written with `show`, as its
   * ETA; other rows are left alone.
   */
  function EtaRows(rows: seq<Row>, total: Option<int>, read: string -> Option<int>, show: Option<int> -> string): (out: seq<Row>)
    ensures |out| == |rows|
    decreases |rows|
  {
    if |rows| == 0 then []
    else if HasEte(rows[0]) then
      var t := AddMinutes(total, read(rows[0].ete));
      [rows[0].(eta := show(t))] + EtaRows(rows[1..], t, read, show)
    else
      [rows[0]] + EtaRows(rows[1..], total, read, show)
  }

  /**
   * `updateETA`: the START row's ATA becomes `00+00` if still open; the leg rows
   * get their ETAs, each ETE cell read back as `HH+MM`.
   */
  function RefreshEta(log: seq<Row>): (out: seq<Row>)
    ensures |out| == |log|
    ensures |log| > 0 ==> out[0] == log[0].(ata := out[0].ata)
    ensures |log| > 0 && log[0].ata != Dash ==> out[0] == log[0]
  {
    if |log| == 0 then log
    else
      var start := if log[0].ata == Dash then log[0].(ata := FormatTime(0)) else log[0];
      [start] + EtaRows(log[1..], Some(0), ReadMinutes, ShowTotal)
  }

  /** The leg rows keep every column but the ETA, and a row without an ETE is not touched at all. */
  lemma {:induction false} EtaRowsFrame(rows: seq<Row>, total: Option<int>, read: string -> Option<int>, show: Option<int> -> string)
    ensures var out := EtaRows(rows, total, read, show);
      forall i :: 0 <= i < |rows| ==> out[i] == rows[i].(eta := out[i].eta) && (!HasEte(rows[i]) ==> out[i] == rows[i])
    decreases |rows|
  {
    if |rows| > 0 {
      var t := if HasEte(rows[0]) then AddMinutes(total, read(rows[0].ete)) else total;
      var out := EtaRows(rows, total, read, show);
      var rest := EtaRows(rows[1..], t, read, show);
      EtaRowsFrame(rows[1..], t, read, show);
      assert out[1..] == rest;
      forall i | 1 <= i < |rows|
        ensures out[i] == rest[i - 1] && rows[i] == rows[1..][i - 1]
      {
      }
    }
  }

  /** The refresh changes only the START row's ATA and the leg rows' ETAs. */
  lemma RefreshEtaFrame(log: seq<Row>)
    ensures forall i :: 1 <= i < |log| ==> RefreshEta(log)[i] == log[i].(eta := RefreshEta(log)[i].eta)
  {
    if |log| > 0 {
      var out := RefreshEta(log);
      EtaRowsFrame(log[1..], Some(0), ReadMinutes, ShowTotal);
      forall i | 1 <= i < |log|
        ensures out[i] == log[i].(eta := out[i].eta)
      {
        assert out[i] == EtaRows(log[1..], Some(0), ReadMinutes, ShowTotal)[i - 1];
      }
    }
  }

  /** Sum of a sequence of minutes. */
  function Total(s: seq<int>): (total: int) {
    if |s| == 0 then 0 else s[0] + Total(s[1..])
  }

  /** Every row has an ETE cell, and `read` takes row i's to `etes[i]`. */
  predicate EtesRead(rows: seq<Row>, etes: seq<int>, read: string -> Option<int>) {
    |etes| == |rows| && forall i :: 0 <= i < |rows| ==> HasEte(rows[i]) && read(rows[i].ete) == Some(etes[i])
  }

  /**
   * When every leg row has an ETE that reads as a number of minutes, each ETA
   * shows the running total, from `total`, of the ETEs up to and including its
   * own row.
   */
  lemma {:induction false} EtaRowsTotals(rows: seq<Row>, etes: seq<int>, total: int,
                                         read: string -> Option<int>, show: Option<int> -> string)
    requires EtesRead(rows, etes, read)
    ensures forall i :: 0 <= i < |rows| ==>
      EtaRows(rows, Some(total), read, show)[i].eta == show(Some(total + Total(etes[..i + 1])))
    decreases |rows|
  {
    if |rows| > 0 {
      var t := total + etes[0];
      var out := EtaRows(rows, Some(total), read, show);
      var rest := EtaRows(rows[1..], Some(t), read, show);
      assert out == [rows[0].(eta := show(Some(t)))] + rest;
      assert EtesRead(rows[1..], etes[1..], read) by {
        forall i | 0 <= i < |rows| - 1
          ensures HasEte(rows[1..][i]) && read(rows[1..][i].ete) == Some(etes[1..][i])
        {
          assert rows[1..][i] == rows[i + 1];
        }
      }
      EtaRowsTotals(rows[1..], etes[1..], t, read, show);
      forall i | 0 <= i < |rows|
        ensures out[i].eta == show(Some(total + Total(etes[..i + 1])))
      {
        TotalPrefix(etes, i);
        if i > 0 {
          assert out[i] == rest[i - 1];
        }
      }
    }
  }

  lemma TotalPrefix(s: seq<int>, i: nat)
    requires i < |s|
    ensures Total(s[..i + 1]) == s[0] + Total(s[1..][..i])
  {
    assert s[..i + 1][1..] == s[1..][..i];
  }

  /**
   * After the refresh, row i's ETA shows the ETEs of rows 1..i added up, when
   * every leg row's ETE cell reads back as a number of minutes.
   */
  lemma RefreshEtaTotals(log: seq<Row>, etes: seq<int>)
    requires |log| > 0 && EtesRead(log[1..], etes, ReadMinutes)
    ensures forall i :: 1 <= i < |log| ==> RefreshEta(log)[i].eta == ShowTotal(Some(Total(etes[..i])))
  {
    var out := RefreshEta(log);
    var legs := EtaRows(log[1..], Some(0), ReadMinutes, ShowTotal);
    EtaRowsTotals(log[1..], etes, 0, ReadMinutes, ShowTotal);
    RefreshEtaLegs(log);
    assert out[1..] == legs;
    forall i | 1 <= i < |log|
      ensures out[i].eta == ShowTotal(Some(Total(etes[..i])))
    {
      assert out[i] == out[1..][i - 1];
      assert etes[..(i - 1) + 1] == etes[..i];
    }
  }

  /** Past the START row, the refreshed log is the leg rows with their ETAs. */
  lemma RefreshEtaLegs(log: seq<Row>)
    requires |log| > 0
    ensures RefreshEta(log)[1..] == EtaRows(log[1..], Some(0), ReadMinutes, ShowTotal)
  {
  }

  /** The refresh stamps the START row's open ATA with `00+00`. */
  lemma RefreshEtaStartAta(log: seq<Row>)
    requires |log| > 0 && log[0].ata == Dash
    ensures RefreshEta(log)[0].ata == "00+00"
  {
    FormatZero();
  }

  /** The refresh reads nothing it writes, so the leg rows reach a fixed point at once. */
  lemma {:induction false} EtaRowsIdempotent(rows: seq<Row>, total: Option<int>,
                                             read: string -> Option<int>, show: Option<int> -> string)
    ensures EtaRows(EtaRows(rows, total, read, show), total, read, show) == EtaRows(rows, total, read, show)
    decreases |rows|
  {
    if |rows| > 0 {
      var once := EtaRows(rows, total, read, show);
      var t := if HasEte(rows[0]) then AddMinutes(total, read(rows[0].ete)) else total;
      EtaRowsIdempotent(rows[1..], t, read, show);
      assert once[1..] == EtaRows(rows[1..], t, read, show);
    }
  }

  /** Running the refresh twice gives the same log as running it once. */
  lemma RefreshEtaIdempotent(log: seq<Row>)
    ensures RefreshEta(RefreshEta(log)) == RefreshEta(log)
  {
    if |log| > 0 {
      var once := RefreshEta(log);
      EtaRowsIdempotent(log[1..], Some(0), ReadMinutes, ShowTotal);
      assert once[1..] == EtaRows(log[1..], Some(0), ReadMinutes, ShowTotal);
    }
  }

  /** The ETE column of a built log: the planned minutes of each leg. */
  function PlannedEtes(legs: seq<Leg>, solve: Solver): (etes: seq<int>)
    ensures |etes| == |legs|
    ensures forall i :: 0 <= i < |legs| ==> etes[i] == LegEte(legs[i], solve)
    decreases |legs|
  {
    if |legs| == 0 then [] else [LegEte(legs[0], solve)] + PlannedEtes(legs[1..], solve)
  }

  /**
   * On a freshly built log whose legs have non-negative distances and are flown at
   * non-negative ground speeds, the refresh writes, for each leg row, the planned
   * minutes of all legs up to it.
   */
  lemma BuiltLogEtas(start: string, legs: seq<Leg>, remarks: seq<string>, solve: Solver)
    requires |remarks| == |legs|
    requires forall i :: 0 <= i < |legs| ==> legs[i].distance >= 0.0 && solve(legs[i].mc).groundSpeed >= 0
    ensures var log := RefreshEta(BuildLog(start, legs, remarks, solve, FormatTime));
      forall i :: 1 <= i < |log| ==> log[i].eta == FormatTime(Total(PlannedEtes(legs, solve)[..i]))
  {
    var log := BuildLog(start, legs, remarks, solve, FormatTime);
    var etes := PlannedEtes(legs, solve);
    forall i | 0 <= i < |etes|
      ensures HasEte(log[1..][i]) && ReadMinutes(log[1..][i].ete) == Some(etes[i])
    {
      assert log[1..][i] == log[i + 1];
      LegEteReadsBack(remarks[i], legs[i], solve);
    }
    RefreshEtaTotals(log, etes);
  }
}

=== FILE: navaids.dfy ===
/**
 * The navaid database as the trainer uses it: choosing the nearest working
 * station for the HSI, and checking a custom route typed in by the trainee and
 * deriving its legs from the database's connections.
 */
module Navaids {
  import opened Common
  import opened FlightLog

  /** A fix has no DME or bearing and is never shown on the HSI; every other type is a station. */
  datatype Kind = Fix | Station

  /** An airway from one navaid to another: its magnetic course and length. */
  datatype Connection = Connection(mc: int, distance: real)

  datatype Navaid = Navaid(kind: Kind, operative: bool, connections: map<string, Connection>)

  /** The database: its entries, and the order its keys are iterated in. */
  datatype Database = Database(order: seq<string>, entries: map<string, Navaid>)

  /** Each key iterated once, and exactly the keys of the entries. */
  predicate WellFormed(db: Database) {
    && (forall i, j :: 0 <= i < j < |db.order| ==> db.order[i] != db.order[j])
    && (forall k :: k in db.entries ==> k in db.order)
    && (forall i :: 0 <= i < |db.order| ==> db.order[i] in db.entries)
  }

  // ---------------------------------------------------------------------
  // selectNearestNavaid
  // ---------------------------------------------------------------------

  /**
   * Whether `key` may be shown on the HSI: a station, working, and placed on the
   * map. Once a custom route is calculated, working means ticked for that route,
   * and a navaid not on the route counts as not working.
   */
  predicate Eligible(db: Database, key: string, custom: Option<map<string, bool>>, dist: string -> Option<real>) {
    && key in db.entries
    && db.entries[key].kind == Station
    && (match custom
        case Some(m) => key in m && m[key]
        case None => db.entries[key].operative)
    && dist(key).Some?
  }

  /**
   * `selectNearestNavaid` over the keys `keys`, in order: the first eligible key
   * at the least distance, or `None` when none is eligible. A later key replaces
   * the choice only when strictly nearer.
   */
  function Nearest(db: Database, keys: seq<string>, custom: Option<map<string, bool>>, dist: string -> Option<real>): (r: Option<string>)
    ensures r.None? <==> forall i :: 0 <= i < |keys| ==> !Eligible(db, keys[i], custom, dist)
    ensures r.Some? ==> Eligible(db, r.value, custom, dist)
    ensures r.Some? ==> forall i :: 0 <= i < |keys| && Eligible(db, keys[i], custom, dist) ==>
      dist(r.value).value <= dist(keys[i]).value
    ensures r.Some? ==> exists i :: (0 <= i < |keys| && keys[i] == r.value &&
      forall j :: 0 <= j < i && Eligible(db, keys[j], custom, dist) ==> dist(keys[j]).value > dist(r.value).value)
    decreases |keys|
  {
    if |keys| == 0 then None
    else
      var p := keys[..|keys| - 1];
      var last := keys[|keys| - 1];
      var best := Nearest(db, p, custom, dist);
      assert forall i :: 0 <= i < |p| ==> p[i] == keys[i];
      if Eligible(db, last, custom, dist) && (best.None? || dist(last).value < dist(best.value).value) then
        Some(last)
      else
        best
  }

  /** The choice over the whole database, in its iteration order. */
  function SelectNearest(db: Database, custom: Option<map<string, bool>>, dist: string -> Option<real>): (r: Option<string>)
    requires WellFormed(db)
    ensures r.Some? ==> r.value in db.entries && Eligible(db, r.value, custom, dist)
    ensures r.None? <==> forall k :: k in db.entries ==> !Eligible(db, k, custom, dist)
  {
    Nearest(db, db.order, custom, dist)
  }

  /** The chosen station is no farther than any eligible navaid in the database. */
  lemma SelectNearestLeast(db: Database, custom: Option<map<string, bool>>, dist: string -> Option<real>)
    requires WellFormed(db)
    ensures var r := SelectNearest(db, custom, dist);
      r.Some? ==> forall k :: k in db.entries && Eligible(db, k, custom, dist) ==> dist(r.value).value <= dist(k).value
  {
    var r := SelectNearest(db, custom, dist);
    if r.Some? {
      forall k | k in db.entries && Eligible(db, k, custom, dist)
        ensures dist(r.value).value <= dist(k).value
      {
        var i :| 0 <= i < |db.order| && db.order[i] == k;
      }
    }
  }

  /** Only the keys a custom route ticked as working can be chosen, whatever the database says. */
  lemma CustomChoiceTicked(db: Database, m: map<string, bool>, dist: string -> Option<real>)
    requires WellFormed(db)
    ensures var r := SelectNearest(db, Some(m), dist);
      r.Some? ==> r.value in m && m[r.value] && db.entries[r.value].kind == Station
  {
  }

  // ---------------------------------------------------------------------
  // calculateCustomRoute
  // ---------------------------------------------------------------------

  /** One row of the route builder: the navaid typed in and its `operative` tick box. */
  datatype Entry = Entry(id: string, ticked: bool)

  /** Why a route is rejected; positions count from 0, the START row. */
  datatype RouteError = BadWind | Empty(at: nat) | Unknown(at: nat) | NotConnected(at: nat) | TooShort

  /** A database airway leads from `from` to `to`. */
  predicate Connected(db: Database, from: string, to: string) {
    from in db.entries && to in db.entries[from].connections
  }

  /** The check of row `i`: filled in, in the database, and reachable from the row before it. */
  function EntryError(db: Database, entries: seq<Entry>, i: nat): (e: Option<RouteError>)
    requires i < |entries|
  {
    var id := entries[i].id;
    if |id| == 0 then Some(Empty(i))
    else if id !in db.entries then Some(Unknown(i))
    else if i > 0 && !Connected(db, entries[i - 1].id, id) then Some(NotConnected(i))
    else None
  }

  /** The first failing check from row `i` on, as the rows are checked in order. */
  function FirstError(db: Database, entries: seq<Entry>, i: nat): (r: Option<RouteError>)
    ensures r.None? <==> forall j :: i <= j < |entries| ==> EntryError(db, entries, j).None?
    ensures r.Some? ==> exists j :: (i <= j < |entries| && r == EntryError(db, entries, j) &&
      forall k :: i <= k < j ==> EntryError(db, entries, k).None?)
    decreases |entries| - i
  {
    if i >= |entries| then None
    else if EntryError(db, entries, i).Some? then EntryError(db, entries, i)
    else FirstError(db, entries, i + 1)
  }

  /** Every row is filled in with a known navaid reachable from the row before it. */
  predicate ValidRoute(db: Database, route: seq<string>) {
    && (forall i :: 0 <= i < |route| ==> |route[i]| > 0 && route[i] in db.entries)
    && (forall i :: 0 <= i < |route| - 1 ==> Connected(db, route[i], route[i + 1]))
  }

  function Ids(entries: seq<Entry>): (ids: seq<string>)
    ensures |ids| == |entries| && forall i :: 0 <= i < |entries| ==> ids[i] == entries[i].id
  {
    seq(|entries|, i requires 0 <= i < |entries| => entries[i].id)
  }

  /** The rows pass every check exactly when their navaids form a valid route. */
  lemma NoErrorValid(db: Database, entries: seq<Entry>)
    ensures FirstError(db, entries, 0).None? <==> ValidRoute(db, Ids(entries))
  {
    var route := Ids(entries);
    if FirstError(db, entries, 0).None? {
      forall i | 0 <= i < |route| - 1
        ensures Connected(db, route[i], route[i + 1])
      {
        assert EntryError(db, entries, i + 1).None?;
      }
      forall i | 0 <= i < |route|
        ensures |route[i]| > 0 && route[i] in db.entries
      {
        assert EntryError(db, entries, i).None?;
      }
    }
  }

  /**
   * The working status stored per navaid of the route: a fix always works, a
   * station as ticked; a navaid typed twice keeps the tick of its last row.
   */
  function Operative(db: Database, entries: seq<Entry>): (m: map<string, bool>)
    requires forall i :: 0 <= i < |entries| ==> entries[i].id in db.entries
    ensures m.Keys == set i | 0 <= i < |entries| :: entries[i].id
    decreases |entries|
  {
    if |entries| == 0 then map[]
    else
      var p := entries[..|entries| - 1];
      var e := entries[|entries| - 1];
      assert forall i :: 0 <= i < |p| ==> p[i] == entries[i];
      var m := Operative(db, p);
      assert (set i | 0 <= i < |entries| :: entries[i].id) == (set i | 0 <= i < |p| :: p[i].id) + {e.id};
      m[e.id := db.entries[e.id].kind == Fix || e.ticked]
  }

  /** A navaid's stored status is that of the last row naming it: ticked, or a fix. */
  lemma {:induction false} OperativeLastRow(db: Database, entries: seq<Entry>, i: nat)
    requires forall i :: 0 <= i < |entries| ==> entries[i].id in db.entries
    requires i < |entries|
    requires forall j :: i < j < |entries| ==> entries[j].id != entries[i].id
    ensures Operative(db, entries)[entries[i].id] == (db.entries[entries[i].id].kind == Fix || entries[i].ticked)
    decreases |entries|
  {
    if i < |entries| - 1 {
      var p := entries[..|entries| - 1];
      OperativeLastRow(db, p, i);
      assert p[i] == entries[i];
    }
  }

  /** A fix on the route always counts as working. */
  lemma OperativeFix(db: Database, entries: seq<Entry>, id: string)
    requires forall i :: 0 <= i < |entries| ==> entries[i].id in db.entries
    requires id in db.entries && db.entries[id].kind == Fix
    requires exists i :: 0 <= i < |entries| && entries[i].id == id
    ensures id in Operative(db, entries) && Operative(db, entries)[id]
  {
    var i :| 0 <= i < |entries| && entries[i].id == id;
    var k := LastRow(entries, i);
    OperativeLastRow(db, entries, k);
  }

  /** The last row naming the navaid of row `i`. */
  function LastRow(entries: seq<Entry>, i: nat): (k: nat)
    requires i < |entries|
    ensures i <= k < |entries| && entries[k].id == entries[i].id
    ensures forall j :: k < j < |entries| ==> entries[j].id != entries[i].id
    decreases |entries| - i
  {
    if exists j :: i < j < |entries| && entries[j].id == entries[i].id then
      var j :| i < j < |entries| && entries[j].id == entries[i].id;
      LastRow(entries, j)
    else i
  }

  /** The legs of a valid route: one per consecutive pair, course and distance from the database airway. */
  function RouteLegs(db: Database, route: seq<string>): (legs: seq<Leg>)
    requires ValidRoute(db, route) && |route| >= 1
    ensures |legs| == |route| - 1
    ensures forall i :: 0 <= i < |legs| ==>
      var c := db.entries[route[i]].connections[route[i + 1]];
      legs[i] == Leg(route[i], route[i + 1], c.mc, c.distance)
  {
    seq(|route| - 1, i requires 0 <= i < |route| - 1 => LegAt(db, route, i))
  }

  /** The leg from route position `i` to the next, on the database airway between them. */
  function LegAt(db: Database, route: seq<string>, i: nat): (leg: Leg)
    requires ValidRoute(db, route) && i < |route| - 1
    ensures var c := db.entries[route[i]].connections[route[i + 1]];
      leg == Leg(route[i], route[i + 1], c.mc, c.distance)
  {
    assert Connected(db, route[i], route[i + 1]);
    var c := db.entries[route[i]].connections[route[i + 1]];
    Leg(route[i], route[i + 1], c.mc, c.distance)
  }

  /** An accepted custom route: the navaids in order, their working status, and the legs. */
  datatype CustomRoute = CustomRoute(route: seq<string>, operative: map<string, bool>, legs: seq<Leg>)

  /**
   * `calculateCustomRoute`: the planned wind is checked first (direction 0..360,
   * speed 0..100), then the rows in order, then that there are at least two.
   */
  function CalculateCustomRoute(db: Database, entries: seq<Entry>, windDir: int, windSpd: int): (r: Result<CustomRoute, RouteError>)
    ensures windDir < 0 || windDir > 360 || windSpd < 0 || windSpd > 100 ==> r == Err(BadWind)
    ensures r.Ok? ==> |r.value.route| == |entries| >= 2 && |r.value.legs| == |r.value.route| - 1
  {
    if windDir < 0 || windDir > 360 || windSpd < 0 || windSpd > 100 then Err(BadWind)
    else
      match FirstError(db, entries, 0)
      case Some(e) => Err(e)
      case None =>
        if |entries| < 2 then Err(TooShort)
        else
          NoErrorValid(db, entries);
          var route := Ids(entries);
          Ok(CustomRoute(route, Operative(db, entries), RouteLegs(db, route)))
  }

  /**
   * A route is accepted exactly when the wind is in range, every row names a
   * known navaid reachable from the one before it, and there are at least two
   * rows. An accepted route lists the rows' navaids in order, has one leg fewer
   * than navaids, each leg joining consecutive navaids with the course and
   * distance of the database airway, and stores a working status for exactly
   * the navaids on it.
   */
  lemma CustomRouteAccepted(db: Database, entries: seq<Entry>, windDir: int, windSpd: int)
    ensures CalculateCustomRoute(db, entries, windDir, windSpd).Ok? <==>
      0 <= windDir <= 360 && 0 <= windSpd <= 100 && ValidRoute(db, Ids(entries)) && |entries| >= 2
    ensures var r := CalculateCustomRoute(db, entries, windDir, windSpd);
      r.Ok? ==>
        && r.value.route == Ids(entries)
        && |r.value.legs| == |entries| - 1
        && (forall i :: 0 <= i < |r.value.legs| ==>
              var c := db.entries[r.value.route[i]].connections[r.value.route[i + 1]];
              r.value.legs[i] == Leg(r.value.route[i], r.value.route[i + 1], c.mc, c.distance))
        && r.value.operative.Keys == set i | 0 <= i < |entries| :: entries[i].id
  {
    NoErrorValid(db, entries);
  }

  /** A rejected route names the first row that fails, and every row before it passes. */
  lemma CustomRouteRejected(db: Database, entries: seq<Entry>, windDir: int, windSpd: int)
    requires 0 <= windDir <= 360 && 0 <= windSpd <= 100
    requires CalculateCustomRoute(db, entries, windDir, windSpd).Err?
    ensures var e := CalculateCustomRoute(db, entries, windDir, windSpd).error;
      || (e == TooShort && |entries| < 2 && ValidRoute(db, Ids(entries)))
      || exists j :: (0 <= j < |entries| && Some(e) == EntryError(db, entries, j) &&
           forall k :: 0 <= k < j ==> EntryError(db, entries, k).None?)
  {
    NoErrorValid(db, entries);
  }
}

=== FILE: numeric.dfy ===
/** JavaScript number operations the trainer relies on, over unbounded `int` and `real`. */
module Numeric {

  /** `Math.round`: the nearest integer, halves rounded toward +infinity. */
  function Round(x: real): (r: int)
    ensures x - 0.5 < r as real <= x + 0.5
  {
    (x + 0.5).Floor
  }

  /** Rounding a whole number gives that number back. */
  lemma RoundWhole(k: int)
    ensures Round(k as real) == k
  {
  }

  /** Truncation toward zero, the quotient JavaScript's `%` uses. */
  function Trunc(x: real): (r: int)
    ensures 0.0 <= x ==> r as real <= x < r as real + 1.0
    ensures x < 0.0 ==> r as real - 1.0 < x <= r as real
  {
    if x >= 0.0 then x.Floor else -((-x).Floor)
  }

  /** JavaScript's `%` on integers: the remainder takes the sign of the dividend. */
  function Rem(a: int, m: int): (r: int)
    requires m > 0
    ensures a >= 0 ==> 0 <= r < m
    ensures a < 0 ==> -m < r <= 0
    ensures exists q: int :: a == q * m + r
  {
    if a >= 0 then
      assert a == (a / m) * m + a % m;
      a % m
    else
      var b := -a;
      assert a == (-(b / m)) * m + -(b % m);
      -(b % m)
  }

  function Abs(x: real): (a: real) {
    if x < 0.0 then -x else x
  }

  function Min(a: real, b: real): (m: real) {
    if a <= b then a else b
  }

  function Max(a: real, b: real): (m: real) {
    if a >= b then a else b
  }

  /** `x` lies on the closed segment between `a` and `b`, in either order. */
  predicate Between(a: real, b: real, x: real) {
    Min(a, b) <= x <= Max(a, b)
  }
}

=== FILE: session.dfy ===
/**
 * The trainer application: the commands the trainee gives (decide the wind,
 * build a custom route, start a run, enter a heading or speed) and the frame
 * update that advances a run in the order the program performs it.
 *
 * Everything the program computes with trigonometry or reads from the screen
 * arrives as a parameter: the wind triangle of the plan (`Solver`), the spawn
 * position, track and ground speed, the aircraft's position after a frame, and
 * the distance from the aircraft to each navaid placed on the map.
 */
module Session {
  import opened Common
  import opened Numeric
  import opened Text
  import opened Angles
  import opened TimeFormat
  import opened FlightLog
  import opened Arrival
  import opened Wind
  import opened Navaids
  import Ac = Aircraft

  // ---------------------------------------------------------------------
  // Event log
  // ---------------------------------------------------------------------

  /** The event-log messages this model produces. */
  datatype Message =
    | WindDecided(dir: int, spd: int, tas: int)
    | CustomRouteSet(route: seq<string>)
    | PlannedWind(dir: int, spd: int, tas: int)
    | TrainingStarted(custom: bool)
    | ActualWind(dir: int, spd: int)
    | InitialHeading(heading: int, tas: int)
    | HeadingEntered(minutes: int, heading: int)
    | TasEntered(minutes: int, tas: int)
    | Passed(navaid: string, ata: string)

  /** An event: whole elapsed seconds when it was logged, and the message. */
  datatype Event = Event(seconds: int, message: Message)

  function Join(parts: seq<string>, sep: string): (s: string)
    decreases |parts|
  {
    if |parts| == 0 then ""
    else if |parts| == 1 then parts[0]
    else parts[0] + sep + Join(parts[1..], sep)
  }

  function WindText(dir: int, spd: int): (s: string) {
    Pad3(dir) + "/" + PadStart(ShowInt(spd), 2, '0')
  }

  function MessageText(m: Message): (line: string) {
    match m
    case WindDecided(dir, spd, tas) => "WIND DECIDED: " + WindText(dir, spd) + ", TAS: " + ShowInt(tas)
    case CustomRouteSet(route) => "CUSTOM ROUTE: " + Join(route, " \U{2192} ")
    case PlannedWind(dir, spd, tas) => "WIND: " + WindText(dir, spd) + ", TAS: " + ShowInt(tas)
    case TrainingStarted(custom) => if custom then "CUSTOM TRAINING STARTED" else "TRAINING STARTED"
    case ActualWind(dir, spd) => "ACTUAL WIND: " + WindText(dir, spd)
    case InitialHeading(heading, tas) => "INITIAL HDG: " + Pad3(heading) + ", TAS: " + ShowInt(tas)
    case HeadingEntered(minutes, heading) => FormatTime(minutes) + " | HDG " + Pad3(heading) + "(M) ENTERED"
    case TasEntered(minutes, tas) => FormatTime(minutes) + " | TAS " + ShowInt(tas) + " ENTERED"
    case Passed(navaid, ata) => navaid + " PASSED - ATA: " + ata
  }

  /** `addEventLog`: the line as the event log shows it, stamped `HH:MM:SS`. */
  function EventText(e: Event): (line: string)
    ensures var n := |FormatTimeHms(e.seconds)|; n >= 8 && |line| >= n + 3 && line[n..n + 3] == " | "
    ensures e.seconds >= 0 ==> ReadHms(line[..|FormatTimeHms(e.seconds)|]) == Some(e.seconds)
  {
    Stamp(FormatTimeHms(e.seconds), MessageText(e.message))
  }

  /** A message behind its time stamp and the ` | ` separator. */
  function Stamp(stamp: string, text: string): (line: string)
    ensures |line| == |stamp| + 3 + |text|
    ensures line[..|stamp|] == stamp && line[|stamp|..|stamp| + 3] == " | " && line[|line| - |text|..] == text
  {
    stamp + " | " + text
  }

  // ---------------------------------------------------------------------
  // Application state
  // ---------------------------------------------------------------------

  /**
   * The application. `customRun` says which start began the run in progress;
   * the program keeps it as its route mode, `routeMode`, which each start locks
   * by disabling the other route tab.
   */
  datatype App = App(
    started: bool,
    customRun: bool,
    time: real,
    planDir: int, planSpd: int,
    log: seq<Row>,
    aircraft: Ac.AircraftState,
    wind: WindState,
    records: map<string, Record>,
    customRoute: seq<string>,
    customLegs: seq<Leg>,
    customOperative: Option<map<string, bool>>,
    selected: Option<string>,
    events: seq<Event>)

  /** The application as constructed: nothing planned, no run, no custom route. */
  function Initial(): (app: App) {
    App(false, false, 0.0, 0, 0, [], Ac.NewAircraft(), WindState(0.0, 0.0, 0.0, 0.0, 0.0),
        map[], [], [], None, None, [])
  }

  /**
   * A custom route, its legs and its log are set together: one leg fewer than
   * navaids, and a log to fly by.
   */
  predicate RouteInv(app: App) {
    |app.customLegs| > 0 ==> |app.customRoute| == |app.customLegs| + 1 && |app.log| > 0
  }

  /** What holds of a run in progress. */
  predicate RunInv(app: App) {
    && RouteInv(app)
    && (app.started ==>
          && app.time >= 0.0
          && |app.log| > 0
          && WindInv(app.wind) && app.wind.lastChange <= app.time
          && Ac.OnCompass(app.aircraft.turn)
          && Ac.HistoryInv(app.aircraft.history))
  }

  lemma InitialInv()
    ensures RunInv(Initial()) && !Initial().started
  {
  }

  /** The wind is accepted as the plan only when its direction is 0..360 and its speed 0..100 knots. */
  predicate WindInRange(dir: int, spd: int) {
    0 <= dir <= 360 && 0 <= spd <= 100
  }

  /**
   * `decideWind`: a planned wind out of range is refused and nothing changes;
   * otherwise it becomes the plan and the default log is written with the wind
   * triangle `solve` of that wind and TAS.
   */
  function DecideWind(app: App, dir: int, spd: int, tas: int, solve: Solver): (r: App)
    ensures !WindInRange(dir, spd) ==> r == app
    ensures WindInRange(dir, spd) ==>
      && r == app.(planDir := dir, planSpd := spd, log := DefaultLog(solve), events := r.events)
      && r.events == app.events + [Event(app.time.Floor, WindDecided(dir, spd, tas))]
  {
    if !WindInRange(dir, spd) then app
    else
      app.(planDir := dir, planSpd := spd, log := DefaultLog(solve),
           events := app.events + [Event(app.time.Floor, WindDecided(dir, spd, tas))])
  }

  /** Deciding a wind keeps the run invariant: the default log it writes is never empty. */
  lemma DecideWindInv(app: App, dir: int, spd: int, tas: int, solve: Solver)
    requires RunInv(app)
    ensures RunInv(DecideWind(app, dir, spd, tas, solve))
  {
  }

  /**
   * `calculateCustomRoute`: a rejected route leaves the application as it was;
   * an accepted one replaces the custom route, its working status and legs, sets
   * the plan and writes the custom log.
   */
  function BuildCustomRoute(app: App, db: Database, entries: seq<Entry>, dir: int, spd: int, tas: int, solve: Solver): (r: App)
    ensures CalculateCustomRoute(db, entries, dir, spd).Err? ==> r == app
    ensures CalculateCustomRoute(db, entries, dir, spd).Ok? ==>
      var c := CalculateCustomRoute(db, entries, dir, spd).value;
      && r == app.(customRoute := c.route, customLegs := c.legs, customOperative := Some(c.operative),
                   planDir := dir, planSpd := spd, log := CustomLog(c.route, c.legs, solve), events := r.events)
      && r.events == app.events + [Event(app.time.Floor, CustomRouteSet(c.route)), Event(app.time.Floor, PlannedWind(dir, spd, tas))]
      && |r.log| == |r.customRoute|
  {
    match CalculateCustomRoute(db, entries, dir, spd)
    case Err(_) => app
    case Ok(c) =>
      CustomRouteAccepted(db, entries, dir, spd);
      var stamp := app.time.Floor;
      app.(customRoute := c.route, customOperative := Some(c.operative), customLegs := c.legs,
           planDir := dir, planSpd := spd, log := CustomLog(c.route, c.legs, solve),
           events := app.events + [Event(stamp, CustomRouteSet(c.route)), Event(stamp, PlannedWind(dir, spd, tas))])
  }

  lemma BuildCustomRouteInv(app: App, db: Database, entries: seq<Entry>, dir: int, spd: int, tas: int, solve: Solver)
    requires RouteInv(app)
    ensures RouteInv(BuildCustomRoute(app, db, entries, dir, spd, tas, solve))
  {
    CustomRouteAccepted(db, entries, dir, spd);
  }

  // ---------------------------------------------------------------------
  // Starting a run
  // ---------------------------------------------------------------------

  /**
   * What a start draws and computes that this model takes as given: the spawn
   * position, the draws for heading and wind, and the first track and ground
   * speed.
   */
  datatype Spawn = Spawn(x: real, y: real, headingDraw: real, dirDraw: real, spdDraw: real, track: int, groundSpeed: int)

  predicate ValidSpawn(s: Spawn) {
    IsDraw(s.headingDraw) && IsDraw(s.dirDraw) && IsDraw(s.spdDraw)
  }

  /**
   * A new aircraft near the first navaid: heading up to 30 degrees either side of
   * the first leg's course, normalised; TAS 240; flying in the seeded wind.
   */
  function SpawnAircraft(mc: int, s: Spawn, wind: WindState): (a: Ac.AircraftState)
    requires ValidSpawn(s)
    ensures Ac.OnCompass(a.turn) && !a.turn.turning && !a.speed.changing
    ensures 0 <= mc <= 360 ==> -30.0 <= AngleDifference(mc as real, a.turn.heading) < 30.0
    ensures a.speed.tas == Ac.DefaultTas && a.history == Ac.History([], 0.0)
    ensures a.windDir == wind.actualDir && a.windSpd == wind.actualSpd
  {
    var offset := (s.headingDraw - 0.5) * 60.0;
    ShiftedDifference(mc as real, offset);
    var blank := Ac.NewAircraft();
    blank.(x := s.x, y := s.y,
           turn := blank.turn.(heading := NormalizeAngle(mc as real + offset)),
           speed := blank.speed.(tas := Ac.DefaultTas),
           track := s.track, groundSpeed := s.groundSpeed,
           windDir := wind.actualDir, windSpd := wind.actualSpd)
  }

  /** The ATA records of the default route. */
  const DefaultRecords: map<string, Record> := map["TGU" := Fresh, "PSN" := Fresh, "KWA_END" := Fresh]

  /** The ATA records of a custom route: a fresh one per navaid after START, shared by repeats. */
  function CustomRecords(route: seq<string>): (m: map<string, Record>)
    requires |route| > 0
    ensures forall id :: id in m <==> id in route[1..]
    ensures forall id :: id in m ==> m[id] == Fresh
  {
    map id | id in route[1..] :: Fresh
  }

  /**
   * The common part of both starts: aircraft and wind drawn, clock at zero, the
   * START row's ATA stamped `00+00`, the ETAs refreshed, three events logged.
   */
  function Launch(app: App, mc: int, s: Spawn, records: map<string, Record>, custom: bool): (r: App)
    requires ValidSpawn(s) && |app.log| > 0
    ensures r.started && r.time == 0.0 && r.records == records && |r.log| == |app.log|
    ensures r.customRoute == app.customRoute && r.customLegs == app.customLegs && r.customRun == custom
    ensures r == app.(started := true, customRun := custom, time := 0.0, aircraft := r.aircraft, wind := r.wind,
                      records := records, log := r.log, events := r.events)
    ensures r.wind == Seed(app.planDir as real, app.planSpd as real, s.dirDraw, s.spdDraw)
    ensures r.aircraft == SpawnAircraft(mc, s, r.wind)
    ensures r.log == RefreshEta(app.log[0 := app.log[0].(ata := FormatTime(0))])
    ensures r.events == app.events + [Event(0, TrainingStarted(custom)),
                                      Event(0, ActualWind(Round(r.wind.actualDir), Round(r.wind.actualSpd))),
                                      Event(0, InitialHeading(Round(r.aircraft.turn.heading), Round(Ac.DefaultTas)))]
  {
    var wind := Seed(app.planDir as real, app.planSpd as real, s.dirDraw, s.spdDraw);
    var ac := SpawnAircraft(mc, s, wind);
    var log := app.log[0 := app.log[0].(ata := FormatTime(0))];
    app.(started := true, customRun := custom, time := 0.0, aircraft := ac, wind := wind, records := records,
         log := RefreshEta(log),
         events := app.events + [Event(0, TrainingStarted(custom)),
                                 Event(0, ActualWind(Round(wind.actualDir), Round(wind.actualSpd))),
                                 Event(0, InitialHeading(Round(ac.turn.heading), Round(Ac.DefaultTas)))])
  }

  /** A run just started satisfies the run invariant. */
  lemma LaunchInv(app: App, mc: int, s: Spawn, records: map<string, Record>, custom: bool)
    requires ValidSpawn(s) && |app.log| > 0 && RouteInv(app)
    ensures RunInv(Launch(app, mc, s, records, custom))
  {
    SeedInv(app.planDir as real, app.planSpd as real, s.dirDraw, s.spdDraw);
  }

  /** The START row of a run just started shows `00+00` as its ATA. */
  lemma LaunchStartAta(app: App, mc: int, s: Spawn, records: map<string, Record>, custom: bool)
    requires ValidSpawn(s) && |app.log| > 0
    ensures Launch(app, mc, s, records, custom).log[0].ata == "00+00"
  {
    var log := app.log[0 := app.log[0].(ata := FormatTime(0))];
    FormatZero();
    assert log[0].ata != Dash;
  }

  /**
   * `startTraining`: refused until a log has been calculated; otherwise a run on
   * the default route, spawned on the course of its first leg, with records for
   * TGU, PSN and the final KWA.
   */
  function StartTraining(app: App, s: Spawn): (r: App)
    requires ValidSpawn(s)
    ensures |app.log| == 0 ==> r == app
    ensures |app.log| > 0 ==> r == Launch(app, DefaultLegs[0].mc, s, DefaultRecords, false)
  {
    if |app.log| == 0 then app
    else Launch(app, DefaultLegs[0].mc, s, DefaultRecords, false)
  }

  /** Starting a default run, or being refused, keeps the run invariant. */
  lemma StartTrainingInv(app: App, s: Spawn)
    requires ValidSpawn(s) && RunInv(app)
    ensures RunInv(StartTraining(app, s))
  {
    if |app.log| > 0 {
      LaunchInv(app, DefaultLegs[0].mc, s, DefaultRecords, false);
    }
  }

  /**
   * `startCustomTraining`: refused until a custom route has been calculated; a
   * first navaid missing from the map stops it after the aircraft has already
   * been replaced by a new one; otherwise a run on the custom route, spawned on
   * the course of its first leg, with a record per navaid after START.
   */
  function StartCustomTraining(app: App, s: Spawn, dist: string -> Option<real>): (r: App)
    requires ValidSpawn(s) && RouteInv(app)
    ensures |app.customLegs| == 0 ==> r == app
    ensures |app.customLegs| > 0 && dist(app.customRoute[0]).None? ==> r == app.(aircraft := Ac.NewAircraft())
    ensures |app.customLegs| > 0 && dist(app.customRoute[0]).Some? ==>
      r == Launch(app, app.customLegs[0].mc, s, CustomRecords(app.customRoute), true)
  {
    if |app.customLegs| == 0 then app
    else if dist(app.customRoute[0]).None? then app.(aircraft := Ac.NewAircraft())
    else Launch(app, app.customLegs[0].mc, s, CustomRecords(app.customRoute), true)
  }

  /**
   * Starting a custom run keeps the run invariant in every branch, the one that
   * only replaces the aircraft included.
   */
  lemma StartCustomTrainingInv(app: App, s: Spawn, dist: string -> Option<real>)
    requires ValidSpawn(s) && RunInv(app)
    ensures RunInv(StartCustomTraining(app, s, dist))
  {
    if |app.customLegs| > 0 && dist(app.customRoute[0]).Some? {
      LaunchInv(app, app.customLegs[0].mc, s, CustomRecords(app.customRoute), true);
    }
  }

  // ---------------------------------------------------------------------
  // Commands during a run
  // ---------------------------------------------------------------------

  /** A commanded airspeed is accepted from 100 to 300 knots. */
  predicate TasInRange(tas: Option<int>) {
    tas.Some? && 100 <= tas.value <= 300
  }

  /** A run is going, a field is filled in, and the heading, if given, is 0..360. */
  predicate ControlAccepted(app: App, heading: Option<int>, tas: Option<int>) {
    app.started && (heading.Some? || tas.Some?) && (heading.None? || 0 <= heading.value <= 360)
  }

  /**
   * `submitControl`: blank fields are `None`. A heading outside 0..360 refuses
   * both; a valid heading is commanded before the speed is checked, so a speed
   * outside 100..300 refuses only the speed.
   */
  function SubmitControl(app: App, heading: Option<int>, tas: Option<int>): (r: App)
    ensures !app.started || (heading.None? && tas.None?) ==> r == app
    ensures app.started && heading.Some? && !(0 <= heading.value <= 360) ==> r == app
    ensures r == app.(aircraft := app.aircraft.(turn := r.aircraft.turn, speed := r.aircraft.speed), events := r.events)
    ensures r.aircraft.turn ==
      if ControlAccepted(app, heading, tas) && heading.Some?
      then Ac.SetHeading(app.aircraft.turn, heading.value as real, app.time) else app.aircraft.turn
    ensures r.aircraft.speed ==
      if ControlAccepted(app, heading, tas) && TasInRange(tas)
      then Ac.SetTas(app.aircraft.speed, tas.value as real, app.time) else app.aircraft.speed
    ensures ControlAccepted(app, heading, tas) ==>
      var minutes := Round(app.time / 60.0);
      r.events == app.events
        + (if heading.Some? then [Event(app.time.Floor, HeadingEntered(minutes, heading.value))] else [])
        + (if TasInRange(tas) then [Event(app.time.Floor, TasEntered(minutes, tas.value))] else [])
  {
    if !app.started || (heading.None? && tas.None?) then app
    else if heading.Some? && !(0 <= heading.value <= 360) then app
    else
      var minutes := Round(app.time / 60.0);
      var stamp := app.time.Floor;
      var steered := if heading.Some? then
          app.(aircraft := app.aircraft.(turn := Ac.SetHeading(app.aircraft.turn, heading.value as real, app.time)),
               events := app.events + [Event(stamp, HeadingEntered(minutes, heading.value))])
        else app;
      if TasInRange(tas) then
        steered.(aircraft := steered.aircraft.(speed := Ac.SetTas(steered.aircraft.speed, tas.value as real, app.time)),
                 events := steered.events + [Event(stamp, TasEntered(minutes, tas.value))])
      else steered
  }

  /** Commands keep the run invariant: a commanded heading is normalised onto the compass. */
  lemma SubmitControlInv(app: App, heading: Option<int>, tas: Option<int>)
    requires RunInv(app)
    ensures RunInv(SubmitControl(app, heading, tas))
  {
  }

  // ---------------------------------------------------------------------
  // The frame update
  // ---------------------------------------------------------------------

  /**
   * What one frame brings: its length `dt` (the game loop caps it at 0.1 s),
   * the wind draws, the track and ground speed the wind triangle gives, the
   * aircraft's new position, and the distance to each navaid on the map.
   */
  datatype FrameInput = FrameInput(
    dt: real, dirDraw: real, signDraw: real, spdDraw: real,
    track: int, groundSpeed: int, x: real, y: real,
    dist: string -> Option<real>)

  predicate ValidFrame(f: FrameInput) {
    0.0 <= f.dt <= Ac.MaxTick && IsDraw(f.dirDraw) && IsDraw(f.signDraw) && IsDraw(f.spdDraw)
  }

  /** The passed waypoints of a frame, as events at its whole second. */
  function Announce(seconds: int, passages: seq<Passage>): (es: seq<Event>)
    ensures |es| == |passages|
    ensures forall i :: 0 <= i < |passages| ==> es[i] == Event(seconds, Passed(passages[i].navaid, passages[i].ata))
  {
    seq(|passages|, i requires 0 <= i < |passages| => Event(seconds, Passed(passages[i].navaid, passages[i].ata)))
  }

  // ---------------------------------------------------------------------
  // The waypoints the ATA detector walks
  // ---------------------------------------------------------------------

  /**
   * The default route's waypoints after START, behind a START placeholder so
   * that route position `j` is log row `j`.
   */
  const DefaultWaypoints: seq<string> := ["KWA", "TGU", "PSN", "KWA"]

  /**
   * The route `checkATA` walks as written: its guard tests the custom route
   * array itself, which is always truthy, even empty, so every run walks the
   * custom route and the default waypoints are never taken.
   */
  function AtaRouteAsWritten(app: App): (route: seq<string>) {
    app.customRoute
  }

  /**
   * The route `checkATA` means to walk, "based on route mode": the custom route
   * on a custom run, the default waypoints on a default run.
   */
  function AtaRoute(app: App): (route: seq<string>)
    ensures app.customRun ==> route == AtaRouteAsWritten(app)
    ensures !app.customRun ==> |route| == 4 && route[1..] == ["TGU", "PSN", "KWA"]
  {
    if app.customRun then app.customRoute else DefaultWaypoints
  }

  /** Records as a default run has them after TGU was closest, 1 nm away, at minute one. */
  function TguSeen(): (records: map<string, Record>) {
    DefaultRecords["TGU" := Record(Some(1.0), Some(60.0), false)]
  }

  /** Records as a default run has them after PSN was closest, 1 nm away, at minute two. */
  function PsnSeen(): (records: map<string, Record>) {
    DefaultRecords["PSN" := Record(Some(1.0), Some(120.0), false)]
  }

  /**
   * The guard as written goes wrong on every default run. With no custom route
   * calculated, a default run checks nothing: TGU, 2 nm away after being 1 nm
   * away, is never marked passed. With a custom route left over from earlier,
   * a default run walks it: its PSN, receding, writes PSN's ATA into row 1, the
   * default route's TGU row.
   */
  lemma AtaRouteAsWrittenMisses(app: App, solve: Solver, dist: string -> Option<real>)
    requires !app.customRun && dist("TGU") == Some(2.0) && dist("PSN") == Some(2.0)
    ensures app.customRoute == [] ==>
      var out := CheckAta(AtaRouteAsWritten(app), AtaState(TguSeen(), DefaultLog(solve), []), dist, 200.0, FormatTime);
      !out.records["TGU"].passed && out.log == DefaultLog(solve)
    ensures app.customRoute == ["KWA", "PSN"] ==>
      var out := CheckAta(AtaRouteAsWritten(app), AtaState(PsnSeen(), DefaultLog(solve), []), dist, 200.0, FormatTime);
      out.log[1].navaid == "TGU" && out.log[1].ata == FormatTime(2)
  {
    if app.customRoute == ["KWA", "PSN"] {
      StaleRoutePsn(DefaultLog(solve), dist);
    }
  }

  lemma StaleRoutePsn(log: seq<Row>, dist: string -> Option<real>)
    requires |log| == 4 && dist("PSN") == Some(2.0)
    ensures CheckAta(["KWA", "PSN"], AtaState(PsnSeen(), log, []), dist, 200.0, FormatTime).log[1]
      == log[1].(ata := FormatTime(2))
  {
    var route := ["KWA", "PSN"];
    var st := AtaState(PsnSeen(), log, []);
    CheckAtaLog(route, st, dist, 200.0, FormatTime);
    assert FirstFrom(route, 1, 1) && Writes(st.records, route[1], dist) by {
      assert route[1] == "PSN";
    }
    assert Round(120.0 / 60.0) == 2;
  }

  /**
   * With the guard as meant, a default run checks the default waypoints
   * whatever custom route is left over: TGU, receding, is marked passed and its
   * ATA goes into the TGU row; PSN's goes into the PSN row and the TGU row is
   * left alone. The final KWA is looked up under its own name, while its record
   * is kept as `KWA_END`, so the END row never receives an ATA.
   */
  lemma AtaRouteDefaultRun(app: App, solve: Solver, dist: string -> Option<real>)
    requires !app.customRun && dist("TGU") == Some(2.0) && dist("PSN") == Some(2.0)
    ensures var out := CheckAta(AtaRoute(app), AtaState(TguSeen(), DefaultLog(solve), []), dist, 200.0, FormatTime);
      out.records["TGU"].passed && out.log[1].navaid == "TGU" && out.log[1].ata == FormatTime(1)
    ensures var out := CheckAta(AtaRoute(app), AtaState(PsnSeen(), DefaultLog(solve), []), dist, 200.0, FormatTime);
      && out.log[2].navaid == "PSN" && out.log[2].ata == FormatTime(2)
      && out.log[1] == DefaultLog(solve)[1] && out.log[3] == DefaultLog(solve)[3]
  {
    DefaultWaypointsTgu(DefaultLog(solve), dist);
    DefaultWaypointsPsn(DefaultLog(solve), dist);
  }

  lemma DefaultWaypointsTgu(log: seq<Row>, dist: string -> Option<real>)
    requires |log| == 4 && dist("TGU") == Some(2.0)
    ensures var out := CheckAta(DefaultWaypoints, AtaState(TguSeen(), log, []), dist, 200.0, FormatTime);
      out.records["TGU"].passed && out.log[1] == log[1].(ata := FormatTime(1))
  {
    var route := DefaultWaypoints;
    var st := AtaState(TguSeen(), log, []);
    CheckAtaLog(route, st, dist, 200.0, FormatTime);
    CheckAtaRecords(route, st, dist, 200.0, FormatTime);
    assert route[1] == "TGU";
    assert FirstFrom(route, 1, 1);
    assert VisitedFrom(route, 1, "TGU");
    assert Writes(st.records, route[1], dist);
    assert Round(60.0 / 60.0) == 1;
  }

  lemma DefaultWaypointsPsn(log: seq<Row>, dist: string -> Option<real>)
    requires |log| == 4 && dist("PSN") == Some(2.0)
    ensures var out := CheckAta(DefaultWaypoints, AtaState(PsnSeen(), log, []), dist, 200.0, FormatTime);
      && out.log[1] == log[1] && out.log[2] == log[2].(ata := FormatTime(2)) && out.log[3] == log[3]
  {
    var route := DefaultWaypoints;
    var st := AtaState(PsnSeen(), log, []);
    CheckAtaLog(route, st, dist, 200.0, FormatTime);
    assert !Writes(st.records, route[1], dist) by {
      assert route[1] == "TGU" && st.records["TGU"] == Fresh;
    }
    assert !Writes(st.records, route[3], dist) by {
      assert route[3] == "KWA" && "KWA" !in st.records;
    }
    assert FirstFrom(route, 1, 2) && Writes(st.records, route[2], dist) by {
      assert route[1] == "TGU" && route[2] == "PSN";
    }
    assert Round(120.0 / 60.0) == 2;
  }

  /**
   * The first half of a frame: the clock advances; the wind fluctuates if three
   * seconds have passed; the aircraft turns and changes speed in that wind,
   * moves, and saves its track.
   */
  function Fly(app: App, f: FrameInput): (r: App)
    requires ValidFrame(f)
    ensures r == app.(time := app.time + f.dt, wind := r.wind, aircraft := r.aircraft)
    ensures r.aircraft.x == f.x && r.aircraft.y == f.y
    ensures r.wind == WindTick(app.wind, app.time + f.dt, f.dirDraw, f.signDraw, f.spdDraw)
    ensures r.aircraft.history == Ac.SaveHistory(app.aircraft.history, f.x, f.y, app.time + f.dt)
    ensures r.aircraft.turn == Ac.TurnStep(app.aircraft.turn, f.dt, app.time + f.dt)
    ensures r.aircraft.speed == Ac.SpeedStep(app.aircraft.speed, f.dt, app.time + f.dt)
  {
    var now := app.time + f.dt;
    var wind := WindTick(app.wind, now, f.dirDraw, f.signDraw, f.spdDraw);
    var flown := Ac.Update(app.aircraft, f.dt, now, wind.actualDir, wind.actualSpd, f.track, f.groundSpeed);
    var moved := flown.(x := f.x, y := f.y);
    app.(time := now, wind := wind, aircraft := moved.(history := Ac.SaveHistory(moved.history, f.x, f.y, now)))
  }

  /**
   * The second half of a frame: the ETAs are refreshed, the ATA detector runs
   * over `route`, and the nearest working station is chosen for the HSI.
   */
  function Bookkeep(app: App, db: Database, f: FrameInput, route: seq<string>): (r: App)
    requires WellFormed(db)
    ensures r == app.(log := r.log, records := r.records, events := r.events, selected := r.selected)
    ensures |r.log| == |app.log| && r.records.Keys == app.records.Keys
  {
    var checked := CheckAta(route, AtaState(app.records, RefreshEta(app.log), []), f.dist, app.time, FormatTime);
    app.(log := checked.log, records := checked.records,
         events := app.events + Announce(app.time.Floor, checked.passages),
         selected := SelectNearest(db, app.customOperative, f.dist))
  }

  /**
   * `update`, in the program's order: first the flight, then the bookkeeping,
   * whose ATA detector walks the custom route on every run, as written.
   * Nothing happens before a run has started.
   */
  function Tick(app: App, db: Database, f: FrameInput): (r: App)
    requires WellFormed(db) && ValidFrame(f)
    ensures !app.started ==> r == app
  {
    if !app.started then app
    else
      var flown := Fly(app, f);
      Bookkeep(flown, db, f, AtaRouteAsWritten(flown))
  }

  /**
   * `update` with the detector walking the route of the run's mode, as meant.
   * On a custom run it is the program's frame.
   */
  function TickIntended(app: App, db: Database, f: FrameInput): (r: App)
    requires WellFormed(db) && ValidFrame(f)
    ensures !app.started ==> r == app
    ensures app.started && app.customRun ==> r == Tick(app, db, f)
  {
    if !app.started then app
    else
      var flown := Fly(app, f);
      Bookkeep(flown, db, f, AtaRoute(flown))
  }

  /** A frame keeps the run invariant, whichever route the detector walks. */
  lemma TickInv(app: App, db: Database, f: FrameInput)
    requires WellFormed(db) && ValidFrame(f) && RunInv(app)
    ensures RunInv(Tick(app, db, f)) && RunInv(TickIntended(app, db, f))
  {
    if app.started {
      FlyInv(app, f);
    }
  }

  lemma FlyInv(app: App, f: FrameInput)
    requires ValidFrame(f) && RunInv(app) && app.started
    ensures RunInv(Fly(app, f))
  {
    FlyWindInv(app, f);
    FlyTurnInv(app, f);
    FlyHistoryInv(app, f);
  }

  /** The flight half keeps the heading and its target on the compass. */
  lemma FlyTurnInv(app: App, f: FrameInput)
    requires ValidFrame(f) && Ac.OnCompass(app.aircraft.turn)
    ensures Ac.OnCompass(Fly(app, f).aircraft.turn)
  {
    Ac.TurnStepOnCompass(app.aircraft.turn, f.dt, app.time + f.dt);
  }

  /** The flight half keeps the wind valid and its last change no later than the new clock. */
  lemma FlyWindInv(app: App, f: FrameInput)
    requires ValidFrame(f) && WindInv(app.wind) && app.wind.lastChange <= app.time
    ensures WindInv(Fly(app, f).wind) && Fly(app, f).wind.lastChange <= Fly(app, f).time
  {
    WindTickInv(app.wind, app.time + f.dt, f.dirDraw, f.signDraw, f.spdDraw);
  }

  /** The flight half keeps the saved track well spaced. */
  lemma FlyHistoryInv(app: App, f: FrameInput)
    requires ValidFrame(f) && Ac.HistoryInv(app.aircraft.history)
    ensures Ac.HistoryInv(Fly(app, f).aircraft.history)
  {
    Ac.SaveHistoryInv(app.aircraft.history, f.x, f.y, app.time + f.dt);
  }

  /**
   * A frame changes the log only in its ETA and ATA columns and keeps its
   * length, whichever route the detector walks.
   */
  lemma TickLogColumns(app: App, db: Database, f: FrameInput)
    requires WellFormed(db) && ValidFrame(f)
    ensures var r := Tick(app, db, f);
      && |r.log| == |app.log|
      && forall i :: 0 <= i < |app.log| ==> r.log[i] == app.log[i].(eta := r.log[i].eta, ata := r.log[i].ata)
    ensures var r := TickIntended(app, db, f);
      && |r.log| == |app.log|
      && forall i :: 0 <= i < |app.log| ==> r.log[i] == app.log[i].(eta := r.log[i].eta, ata := r.log[i].ata)
  {
    if app.started {
      var flown := Fly(app, f);
      BookkeepLogColumns(flown, db, f, AtaRouteAsWritten(flown));
      BookkeepLogColumns(flown, db, f, AtaRoute(flown));
    }
  }

  lemma BookkeepLogColumns(app: App, db: Database, f: FrameInput, route: seq<string>)
    requires WellFormed(db)
    ensures var r := Bookkeep(app, db, f, route);
      forall i :: 0 <= i < |app.log| ==> r.log[i] == app.log[i].(eta := r.log[i].eta, ata := r.log[i].ata)
  {
    var refreshed := RefreshEta(app.log);
    var st := AtaState(app.records, refreshed, []);
    RefreshEtaFrame(app.log);
    CheckAtaLog(route, st, f.dist, app.time, FormatTime);
  }

  /**
   * As written, a run without a calculated custom route (every default run
   * before the custom tab is used) has its detector walk nothing: a frame only
   * refreshes the ETAs, keeps every record and logs no passage.
   */
  lemma TickWithoutCustomRoute(app: App, db: Database, f: FrameInput)
    requires WellFormed(db) && ValidFrame(f)
    requires app.started && |app.customRoute| <= 1
    ensures var r := Tick(app, db, f);
      r.records == app.records && r.log == RefreshEta(app.log) && r.events == app.events
  {
    var flown := Fly(app, f);
    FlyKeepsRoute(app, f);
    var checked := CheckAta(AtaRouteAsWritten(flown), AtaState(flown.records, RefreshEta(flown.log), []), f.dist, flown.time, FormatTime);
    assert checked.passages == [];
    assert Announce(flown.time.Floor, checked.passages) == [];
  }

  /**
   * With the detector walking the route of the run's mode, the final KWA of a
   * default run is still never found under its record's name `KWA_END`: a frame
   * never steps that record and never writes the END row's ATA, whatever the
   * distances.
   */
  lemma TickDefaultRunEnd(app: App, db: Database, f: FrameInput)
    requires WellFormed(db) && ValidFrame(f)
    requires app.started && !app.customRun && app.records.Keys == DefaultRecords.Keys && |app.log| == 4
    ensures var r := TickIntended(app, db, f);
      r.records["KWA_END"] == app.records["KWA_END"] && r.log[3].ata == RefreshEta(app.log)[3].ata
  {
    var flown := Fly(app, f);
    FlyKeepsRoute(app, f);
    assert "KWA_END" in app.records && "KWA" !in app.records by {
      assert "KWA_END" in DefaultRecords.Keys && "KWA" !in DefaultRecords.Keys;
    }
    BookkeepDefaultRunEnd(flown, db, f);
    assert TickIntended(app, db, f) == Bookkeep(flown, db, f, DefaultWaypoints);
  }

  lemma BookkeepDefaultRunEnd(app: App, db: Database, f: FrameInput)
    requires WellFormed(db)
    requires "KWA_END" in app.records && "KWA" !in app.records && |app.log| == 4
    ensures var r := Bookkeep(app, db, f, DefaultWaypoints);
      r.records["KWA_END"] == app.records["KWA_END"] && r.log[3].ata == RefreshEta(app.log)[3].ata
  {
    var st := AtaState(app.records, RefreshEta(app.log), []);
    CheckAtaRecords(DefaultWaypoints, st, f.dist, app.time, FormatTime);
    CheckAtaLog(DefaultWaypoints, st, f.dist, app.time, FormatTime);
    assert !VisitedFrom(DefaultWaypoints, 1, "KWA_END") by {
      assert forall i :: 1 <= i < |DefaultWaypoints| ==> DefaultWaypoints[i] in {"TGU", "PSN", "KWA"};
    }
    assert !Writes(st.records, DefaultWaypoints[3], f.dist) by {
      assert DefaultWaypoints[3] == "KWA";
    }
  }

  /**
   * A frame keeps every ATA record, steps each one the detector's route visits
   * once, and never takes back a passed mark: over the custom route as written,
   * over the route of the run's mode as meant.
   */
  lemma TickRecords(app: App, db: Database, f: FrameInput)
    requires WellFormed(db) && ValidFrame(f) && app.started
    ensures var r := Tick(app, db, f);
      forall id :: id in app.records ==>
        && r.records[id] == Checked(app.customRoute, 1, app.records, id, f.dist, app.time + f.dt)
        && (app.records[id].passed ==> r.records[id].passed)
    ensures var r := TickIntended(app, db, f);
      forall id :: id in app.records ==>
        && r.records[id] == Checked(AtaRoute(app), 1, app.records, id, f.dist, app.time + f.dt)
        && (app.records[id].passed ==> r.records[id].passed)
  {
    var flown := Fly(app, f);
    FlyKeepsRoute(app, f);
    BookkeepRecords(flown, db, f, app.customRoute, app.records, app.time + f.dt);
    BookkeepRecords(flown, db, f, AtaRoute(app), app.records, app.time + f.dt);
    assert Tick(app, db, f) == Bookkeep(flown, db, f, app.customRoute);
    assert TickIntended(app, db, f) == Bookkeep(flown, db, f, AtaRoute(app));
  }

  /**
   * The events a frame logs: one `PASSED` line per passage the detector notes,
   * in route order, stamped with the frame's second; over the custom route as
   * written, over the route of the run's mode as meant.
   */
  lemma TickEvents(app: App, db: Database, f: FrameInput)
    requires WellFormed(db) && ValidFrame(f) && app.started
    ensures Tick(app, db, f).events ==
      app.events + Announce((app.time + f.dt).Floor,
                            Noted(app.customRoute, 1, 1, AtaState(app.records, RefreshEta(app.log), []), f.dist, FormatTime))
    ensures TickIntended(app, db, f).events ==
      app.events + Announce((app.time + f.dt).Floor,
                            Noted(AtaRoute(app), 1, 1, AtaState(app.records, RefreshEta(app.log), []), f.dist, FormatTime))
  {
    var flown := Fly(app, f);
    FlyKeepsRoute(app, f);
    BookkeepEvents(flown, db, f, app.customRoute, app.records, app.log, app.time + f.dt);
    BookkeepEvents(flown, db, f, AtaRoute(app), app.records, app.log, app.time + f.dt);
    assert Tick(app, db, f) == Bookkeep(flown, db, f, app.customRoute);
    assert TickIntended(app, db, f) == Bookkeep(flown, db, f, AtaRoute(app));
  }

  lemma BookkeepEvents(app: App, db: Database, f: FrameInput,
                       route: seq<string>, records: map<string, Record>, log: seq<Row>, now: real)
    requires WellFormed(db)
    requires app.records == records && app.log == log && app.time == now
    ensures Bookkeep(app, db, f, route).events ==
      app.events + Announce(now.Floor, Noted(route, 1, 1, AtaState(records, RefreshEta(log), []), f.dist, FormatTime))
  {
    CheckAtaPassages(route, AtaState(records, RefreshEta(log), []), f.dist, now, FormatTime);
  }

  /** The flight half keeps both routes and the ATA records. */
  lemma FlyKeepsRoute(app: App, f: FrameInput)
    requires ValidFrame(f)
    ensures AtaRoute(Fly(app, f)) == AtaRoute(app) && AtaRouteAsWritten(Fly(app, f)) == app.customRoute
    ensures Fly(app, f).records == app.records && Fly(app, f).log == app.log
    ensures Fly(app, f).customRun == app.customRun
    ensures Fly(app, f).time == app.time + f.dt
  {
  }

  lemma BookkeepRecords(app: App, db: Database, f: FrameInput,
                        route: seq<string>, records: map<string, Record>, now: real)
    requires WellFormed(db)
    requires app.records == records && app.time == now
    ensures var r := Bookkeep(app, db, f, route);
      forall id :: id in records ==>
        && r.records[id] == Checked(route, 1, records, id, f.dist, now)
        && (records[id].passed ==> r.records[id].passed)
  {
    var st := AtaState(app.records, RefreshEta(app.log), []);
    CheckAtaRecords(route, st, f.dist, app.time, FormatTime);
  }

  /** The station a frame selects is working, a station, placed, and no farther than any other such. */
  lemma TickSelection(app: App, db: Database, f: FrameInput)
    requires WellFormed(db) && ValidFrame(f) && app.started
    ensures var r := Tick(app, db, f);
      && (r.selected.Some? ==> Eligible(db, r.selected.value, app.customOperative, f.dist))
      && (r.selected.Some? ==> forall k :: k in db.entries && Eligible(db, k, app.customOperative, f.dist) ==>
            f.dist(r.selected.value).value <= f.dist(k).value)
      && (r.selected.None? <==> forall k :: k in db.entries ==> !Eligible(db, k, app.customOperative, f.dist))
  {
    SelectNearestLeast(db, app.customOperative, f.dist);
  }
}

=== FILE: text.dfy ===
/**
 * The string operations the flight log is written and read back with:
 * `Number.prototype.toString` on integers, `String.prototype.padStart`,
 * `String.prototype.split` on one character and `parseInt(x) || 0`.
 */
module Text {
  import opened Common

  predicate IsDigit(c: char) {
    '0' <= c <= '9'
  }

  function DigitChar(d: nat): (c: char)
    requires d < 10
    ensures IsDigit(c) && c as int - '0' as int == d
  {
    ('0' as int + d) as char
  }

  function DigitValue(c: char): (d: nat)
    requires IsDigit(c)
  {
    (c as int - '0' as int) as nat
  }

  predicate AllDigits(s: string) {
    forall i :: 0 <= i < |s| ==> IsDigit(s[i])
  }

  /** Decimal value of a digit string, read left to right. */
  function Value(s: string): (v: nat)
    requires AllDigits(s)
  {
    if |s| == 0 then 0 else Value(s[..|s| - 1]) * 10 + DigitValue(s[|s| - 1])
  }

  /** `n.toString()` for a non-negative integer. */
  function ShowNat(n: nat): (s: string)
    ensures |s| >= 1 && AllDigits(s)
  {
    if n < 10 then [DigitChar(n)] else ShowNat(n / 10) + [DigitChar(n % 10)]
  }

  /** The decimal digits of `n` are worth `n`. */
  lemma {:induction false} ShowNatValue(n: nat)
    ensures Value(ShowNat(n)) == n
  {
    if n >= 10 {
      var s := ShowNat(n);
      ShowNatValue(n / 10);
      assert s[..|s| - 1] == ShowNat(n / 10);
    }
  }

  /** `i.toString()` for any integer: a minus sign, then the digits of the magnitude. */
  function ShowInt(i: int): (s: string)
    ensures i >= 0 ==> s == ShowNat(i)
    ensures i < 0 ==> |s| >= 2 && s[0] == '-' && s[1..] == ShowNat(-i)
  {
    if i < 0 then "-" + ShowNat(-i) else ShowNat(i)
  }

  function Repeat(c: char, n: nat): (s: string)
    ensures |s| == n && forall i :: 0 <= i < n ==> s[i] == c
  {
    if n == 0 then [] else [c] + Repeat(c, n - 1)
  }

  /** `s.padStart(width, c)`: `c` repeated in front of `s` until it is `width` long. */
  function PadStart(s: string, width: nat, c: char): (r: string)
    ensures |r| == if |s| >= width then |s| else width
    ensures r[|r| - |s|..] == s
    ensures forall i :: 0 <= i < |r| - |s| ==> r[i] == c
  {
    if |s| >= width then s else Repeat(c, width - |s|) + s
  }

  /** `s.split([sep])`: the pieces between occurrences of `sep`; always at least one piece. */
  function Split(s: string, sep: char): (parts: seq<string>)
    ensures |parts| >= 1
  {
    if |s| == 0 then
      [""]
    else if s[0] == sep then
      [""] + Split(s[1..], sep)
    else
      var rest := Split(s[1..], sep);
      [[s[0]] + rest[0]] + rest[1..]
  }

  /** Length of the longest prefix of `s` made of digits. */
  function DigitRun(s: string): (k: nat)
    ensures k <= |s| && AllDigits(s[..k])
    ensures k < |s| ==> !IsDigit(s[k])
  {
    if |s| == 0 || !IsDigit(s[0]) then 0
    else
      var k := 1 + DigitRun(s[1..]);
      assert s[..k] == [s[0]] + s[1..][..k - 1];
      k
  }

  /** The value `parseInt` reads from an optionally signed digit string, or `None` for its `NaN`. */
  function ParseInt(s: string): (r: Option<int>)
  {
    var negative := |s| > 0 && s[0] == '-';
    var body := if |s| > 0 && (s[0] == '-' || s[0] == '+') then s[1..] else s;
    var k := DigitRun(body);
    var v: int := Value(body[..k]);
    if k == 0 then None
    else if negative then Some(-v)
    else Some(v)
  }

  /**
   * `parseInt` reads a number exactly when a digit follows the optional sign;
   * the value is never positive after a minus sign and never negative otherwise.
   */
  lemma ParseIntAccepts(s: string)
    ensures var body := if |s| > 0 && (s[0] == '-' || s[0] == '+') then s[1..] else s;
      ParseInt(s).Some? <==> |body| > 0 && IsDigit(body[0])
    ensures ParseInt(s).Some? && |s| > 0 && s[0] == '-' ==> ParseInt(s).value <= 0
    ensures ParseInt(s).Some? && !(|s| > 0 && s[0] == '-') ==> ParseInt(s).value >= 0
  {
  }

  /** `parseInt(s) || 0`: a failed parse reads as zero. */
  function ParseIntOrZero(s: string): (v: int) {
    match ParseInt(s)
    case Some(v) => v
    case None => 0
  }

  // ---------------------------------------------------------------------
  // Facts about reading back what was written
  // ---------------------------------------------------------------------

  /** Leading zeros do not change the value of a digit string. */
  lemma {:induction false} ValueLeadingZeros(z: string, s: string)
    requires forall i :: 0 <= i < |z| ==> z[i] == '0'
    requires AllDigits(s)
    ensures AllDigits(z + s) && Value(z + s) == Value(s)
  {
    if |s| == 0 {
      assert z + s == z;
      ZerosValue(z);
    } else {
      var s' := s[..|s| - 1];
      ValueLeadingZeros(z, s');
      assert (z + s)[..|z + s| - 1] == z + s';
    }
  }

  lemma {:induction false} ZerosValue(z: string)
    requires forall i :: 0 <= i < |z| ==> z[i] == '0'
    ensures AllDigits(z) && Value(z) == 0
  {
    if |z| > 0 {
      ZerosValue(z[..|z| - 1]);
    }
  }

  lemma DigitRunAll(s: string)
    requires AllDigits(s)
    ensures DigitRun(s) == |s|
  {
    if |s| > 0 {
      DigitRunAll(s[1..]);
    }
  }

  /** An unsigned digit string reads as its decimal value. */
  lemma ParseDigits(p: string)
    requires |p| > 0 && AllDigits(p)
    ensures ParseInt(p) == Some(Value(p))
  {
    assert IsDigit(p[0]);
    assert p[0] != '-' && p[0] != '+';
    DigitRunAll(p);
    assert p[..DigitRun(p)] == p;
  }

  /** A zero-padded decimal reads back as the number written. */
  lemma ParsePaddedNat(n: nat, width: nat)
    ensures ParseInt(PadStart(ShowNat(n), width, '0')) == Some(n)
  {
    var s := ShowNat(n);
    var p := PadStart(s, width, '0');
    var z := p[..|p| - |s|];
    assert p == z + s;
    ShowNatValue(n);
    ValueLeadingZeros(z, s);
    ParseDigits(p);
  }

  /**
   * Padding an integer to a width of at least two and parsing it gives the integer
   * back, whatever its sign: a negative number is already two characters long, so
   * no zero is ever put in front of its minus sign.
   */
  lemma ParsePaddedInt(i: int, width: nat)
    requires width <= 2
    ensures ParseInt(PadStart(ShowInt(i), width, '0')) == Some(i)
  {
    if i >= 0 {
      ParsePaddedNat(i, width);
    } else {
      var s := ShowInt(i);
      assert PadStart(s, width, '0') == s;
      ShowNatValue(-i);
      var body := s[1..];
      assert s[0] == '-' && body == ShowNat(-i);
      DigitRunAll(body);
      assert body[..DigitRun(body)] == body;
    }
  }

  /** A signed decimal with an explicit `+` reads back as the number written. */
  lemma ParsePlusSigned(n: nat)
    ensures ParseInt("+" + ShowNat(n)) == Some(n)
  {
    var s := "+" + ShowNat(n);
    ShowNatValue(n);
    DigitRunAll(s[1..]);
    assert s[1..][..|s[1..]|] == ShowNat(n);
  }

  /** What ShowInt writes contains only digits and the minus sign. */
  predicate NumericChars(s: string) {
    forall i :: 0 <= i < |s| ==> IsDigit(s[i]) || s[i] == '-'
  }

  lemma PaddedIntIsNumeric(i: int, width: nat)
    ensures NumericChars(PadStart(ShowInt(i), width, '0'))
  {
    var s := ShowInt(i);
    var p := PadStart(s, width, '0');
    forall k | 0 <= k < |p|
      ensures IsDigit(p[k]) || p[k] == '-'
    {
      if k >= |p| - |s| {
        assert p[k] == p[|p| - |s|..][k - (|p| - |s|)];
      }
    }
  }

  /** Splitting gives a single piece exactly when the separator does not occur. */
  lemma {:induction false} SplitSeparator(s: string, sep: char)
    ensures |Split(s, sep)| == 1 <==> sep !in s
  {
    if |s| > 0 && s[0] != sep {
      SplitSeparator(s[1..], sep);
      assert sep in s <==> sep in s[1..];
    }
  }

  /** A string without the separator splits into itself alone. */
  lemma {:induction false} SplitNoSeparator(s: string, sep: char)
    requires sep !in s
    ensures Split(s, sep) == [s]
  {
    if |s| > 0 {
      assert sep !in s[1..];
      SplitNoSeparator(s[1..], sep);
      assert [s[0]] + s[1..] == s;
    }
  }

  /** Splitting at the first separator: the text before it, then the pieces of the rest. */
  lemma {:induction false} SplitFirst(a: string, sep: char, b: string)
    requires sep !in a
    ensures Split(a + [sep] + b, sep) == [a] + Split(b, sep)
  {
    var s := a + [sep] + b;
    if |a| == 0 {
      assert s[1..] == b;
    } else {
      assert s[1..] == a[1..] + [sep] + b;
      assert sep !in a[1..];
      SplitFirst(a[1..], sep, b);
      assert [a[0]] + a[1..] == a;
    }
  }
}

=== FILE: timeformat.dfy ===
/**
 * The two clock formats of the trainer: `HH+MM` for flight-log minutes
 * (ETE, ETA, ATA) and `HH:MM:SS` for event-log seconds, and the reading-back
 * of `HH+MM` that the ETA refresh performs.
 */
module TimeFormat {
  import opened Common
  import opened Numeric
  import opened Text

  /** A number field of a clock string: the integer, zero-padded to two characters. */
  function Field(i: int): (s: string) {
    PadStart(ShowInt(i), 2, '0')
  }

  /** A field holds only digits and the minus sign, and reads back as its integer. */
  lemma FieldReadsBack(i: int)
    ensures NumericChars(Field(i))
    ensures ParseInt(Field(i)) == Some(i)
  {
    PaddedIntIsNumeric(i, 2);
    ParsePaddedInt(i, 2);
  }

  /**
   * `formatTime`: whole hours by floor division, then the remaining minutes by
   * JavaScript's `%`, whose result keeps the sign of a negative argument.
   */
  function FormatTime(minutes: int): (s: string)
    ensures |s| >= 5
  {
    Field(minutes / 60) + "+" + Field(Rem(minutes, 60))
  }

  /**
   * The minutes the ETA refresh reads from an ETE cell: split on `+`, each piece
   * through `parseInt(x) || 0`, then `hours * 60 + mins`; a cell with no `+`
   * leaves `mins` undefined and the sum `NaN`, written `None`.
   */
  function ReadMinutes(cell: string): (r: Option<int>)
    ensures r.Some? <==> '+' in cell
  {
    SplitSeparator(cell, '+');
    var parts := Split(cell, '+');
    if |parts| < 2 then None
    else Some(ParseIntOrZero(parts[0]) * 60 + ParseIntOrZero(parts[1]))
  }

  lemma NoSeparatorIn(s: string, sep: char)
    requires NumericChars(s) && sep != '-' && !IsDigit(sep)
    ensures sep !in s
  {
  }

  /** What the ETA refresh reads from `formatTime(m)`: floor hours times 60 plus truncated minutes. */
  lemma ReadFormatTime(minutes: int)
    ensures ReadMinutes(FormatTime(minutes)) == Some((minutes / 60) * 60 + Rem(minutes, 60))
  {
    ReadClockTotal(FormatTime(minutes), (minutes / 60) * 60 + Rem(minutes, 60), minutes / 60, Rem(minutes, 60));
  }

  lemma ReadClockTotal(cell: string, total: int, h: int, m: int)
    requires cell == Field(h) + "+" + Field(m) && h * 60 + m == total
    ensures ReadMinutes(cell) == Some(total)
  {
    ReadClock(h, m);
  }

  /** Two fields joined by `+` read back as hours and minutes. */
  lemma ReadClock(h: int, m: int)
    ensures ReadMinutes(Field(h) + "+" + Field(m)) == Some(h * 60 + m)
  {
    var a, b := Field(h), Field(m);
    FieldReadsBack(h);
    FieldReadsBack(m);
    NoSeparatorIn(a, '+');
    NoSeparatorIn(b, '+');
    SplitFirst(a, '+', b);
    SplitNoSeparator(b, '+');
    ReadFields(a + "+" + b, a, b, h, m);
  }

  lemma ReadFields(cell: string, a: string, b: string, h: int, m: int)
    requires Split(cell, '+') == [a, b]
    requires ParseInt(a) == Some(h) && ParseInt(b) == Some(m)
    ensures ReadMinutes(cell) == Some(h * 60 + m)
  {
  }

  /**
   * Writing minutes with `formatTime` and reading them back as the ETA refresh
   * does returns the same minutes exactly when they are non-negative or a whole
   * number of hours; the minutes field of a non-negative time lies in 0..59.
   */
  lemma FormatTimeRoundTrip(minutes: int)
    ensures ReadMinutes(FormatTime(minutes)) == Some(minutes) <==> minutes >= 0 || minutes % 60 == 0
    ensures minutes >= 0 ==> 0 <= Rem(minutes, 60) < 60 && (minutes / 60) * 60 + Rem(minutes, 60) == minutes
  {
    var read := (minutes / 60) * 60 + Rem(minutes, 60);
    ReadFormatTime(minutes);
    HourSplit(minutes);
    assert read == minutes <==> minutes >= 0 || minutes % 60 == 0;
  }

  /** A negative time that is not a whole number of hours reads back one hour early. */
  lemma MisreadNegative(minutes: int)
    requires minutes < 0 && minutes % 60 != 0
    ensures ReadMinutes(FormatTime(minutes)) == Some(minutes - 60)
  {
    ReadFormatTime(minutes);
    HourSplit(minutes);
  }

  /** Floor hours and truncated minutes recombine exactly unless the time is negative and not whole hours. */
  lemma HourSplit(minutes: int)
    ensures minutes >= 0 || minutes % 60 == 0 ==> (minutes / 60) * 60 + Rem(minutes, 60) == minutes
    ensures minutes < 0 && minutes % 60 != 0 ==> (minutes / 60) * 60 + Rem(minutes, 60) == minutes - 60
  {
    var q := minutes / 60;
    assert minutes == 60 * q + minutes % 60;
    if minutes < 0 {
      var p := (-minutes) / 60;
      assert -minutes == 60 * p + (-minutes) % 60;
      if minutes % 60 != 0 {
        assert (-minutes) % 60 == 60 - minutes % 60;
      } else {
        assert (-minutes) % 60 == 0;
      }
    }
  }

  /** The concrete case: -116 minutes is shown `-2+-56` and read back as -176. */
  lemma MisreadMinus116()
    ensures FormatTime(-116) == "-2+-56"
    ensures ReadMinutes(FormatTime(-116)) == Some(-176)
  {
    MisreadNegative(-116);
    assert ShowNat(2) == "2";
    assert ShowNat(56) == "56" by {
      assert ShowNat(5) == "5";
    }
  }

  /** The start row's actual time. */
  lemma FormatZero()
    ensures FormatTime(0) == "00+00"
  {
    assert ShowNat(0) == "0";
  }

  /** Hours, minutes and seconds fields joined by `:`. */
  function HmsText(h: int, m: int, sec: int): (s: string)
    ensures |s| >= 8
  {
    Field(h) + ":" + Field(m) + ":" + Field(sec)
  }

  /** `formatTimeHMS`: `HH:MM:SS` with floor division and JavaScript's `%`. */
  function FormatTimeHms(seconds: int): (s: string)
    ensures |s| >= 8
    ensures seconds >= 0 ==> ReadHms(s) == Some(seconds)
  {
    var h, m, sec := seconds / 3600, Rem(seconds, 3600) / 60, Rem(seconds, 60);
    var s := HmsText(h, m, sec);
    if seconds >= 0 then
      ClockArithmetic(seconds);
      ReadHmsTotal(s, seconds, h, m, sec);
      s
    else s
  }

  /** Reads `HH:MM:SS` back into seconds; `None` if the text is not three fields. */
  function ReadHms(text: string): (r: Option<int>) {
    var parts := Split(text, ':');
    if |parts| != 3 then None
    else Some(ParseIntOrZero(parts[0]) * 3600 + ParseIntOrZero(parts[1]) * 60 + ParseIntOrZero(parts[2]))
  }

  /**
   * For a non-negative number of seconds, the three fields are hours, minutes and
   * seconds with minutes and seconds in 0..59, and reading them back gives the
   * seconds formatted.
   */
  lemma FormatTimeHmsRoundTrip(seconds: int)
    requires seconds >= 0
    ensures 0 <= Rem(seconds, 3600) / 60 < 60 && 0 <= Rem(seconds, 60) < 60
    ensures ReadHms(FormatTimeHms(seconds)) == Some(seconds)
  {
    ClockArithmetic(seconds);
    ReadHmsTotal(FormatTimeHms(seconds), seconds, seconds / 3600, Rem(seconds, 3600) / 60, Rem(seconds, 60));
  }

  lemma ReadHmsTotal(text: string, total: int, h: int, m: int, sec: int)
    requires text == HmsText(h, m, sec) && h * 3600 + m * 60 + sec == total
    ensures ReadHms(text) == Some(total)
  {
    ReadHmsText(h, m, sec);
  }

  /** Three fields joined by `:` read back as hours, minutes and seconds. */
  lemma ReadHmsText(h: int, m: int, sec: int)
    ensures ReadHms(HmsText(h, m, sec)) == Some(h * 3600 + m * 60 + sec)
  {
    var a, b, c := Field(h), Field(m), Field(sec);
    FieldReadsBack(h);
    FieldReadsBack(m);
    FieldReadsBack(sec);
    SplitThree(a, b, c);
    ReadThreeFields(a + ":" + b + ":" + c, a, b, c, h, m, sec);
  }

  lemma SplitThree(a: string, b: string, c: string)
    requires NumericChars(a) && NumericChars(b) && NumericChars(c)
    ensures Split(a + ":" + b + ":" + c, ':') == [a, b, c]
  {
    NoSeparatorIn(a, ':');
    NoSeparatorIn(b, ':');
    NoSeparatorIn(c, ':');
    assert a + ":" + b + ":" + c == a + [':'] + (b + [':'] + c);
    SplitFirst(a, ':', b + [':'] + c);
    SplitFirst(b, ':', c);
    SplitNoSeparator(c, ':');
  }

  lemma ReadThreeFields(text: string, a: string, b: string, c: string, h: int, m: int, sec: int)
    requires Split(text, ':') == [a, b, c]
    requires ParseInt(a) == Some(h) && ParseInt(b) == Some(m) && ParseInt(c) == Some(sec)
    ensures ReadHms(text) == Some(h * 3600 + m * 60 + sec)
  {
  }

  lemma ClockArithmetic(seconds: int)
    requires seconds >= 0
    ensures 0 <= Rem(seconds, 3600) / 60 < 60 && 0 <= Rem(seconds, 60) < 60
    ensures (seconds / 3600) * 3600 + (Rem(seconds, 3600) / 60) * 60 + Rem(seconds, 60) == seconds
  {
    var h, m := seconds / 3600, seconds % 3600;
    assert seconds == 3600 * h + m;
    assert m == 60 * (m / 60) + m % 60;
    assert m % 60 == seconds % 60;
  }
}

=== FILE: wind.dfy ===
/**
 * The actual wind of a training run: drawn once at the start around the planned
 * wind, then every three seconds redrawn around that starting ("base") wind.
 * `Math.random()` draws are parameters in [0, 1).
 */
module Wind {
  import opened Numeric
  import opened Angles

  /** Seconds between two wind fluctuations. */
  const ChangeInterval: real := 3.0

  /** The wind fluctuation keeps the speed between these bounds, in knots. */
  const MinFluctuatedSpeed: real := 20.0
  const MaxFluctuatedSpeed: real := 70.0

  predicate IsDraw(r: real) {
    0.0 <= r < 1.0
  }

  /**
   * The actual wind the aircraft flies in, the base wind the fluctuation is drawn
   * around, and the elapsed time of the last fluctuation.
   */
  datatype WindState = WindState(actualDir: real, actualSpd: real, baseDir: real, baseSpd: real, lastChange: real)

  /**
   * The seeding in `startTraining` and `startCustomTraining`: direction up to 40
   * degrees either side of the plan, normalised; speed up to 10 knots either side,
   * never below zero. The base wind is the seeded wind and the clock starts at 0.
   */
  function Seed(planDir: real, planSpd: real, dirDraw: real, spdDraw: real): (w: WindState)
    requires IsDraw(dirDraw) && IsDraw(spdDraw)
    ensures 0.0 <= w.actualDir < 360.0 && w.actualSpd >= 0.0
    ensures w.baseDir == w.actualDir && w.baseSpd == w.actualSpd && w.lastChange == 0.0
    ensures 0.0 <= planDir <= 360.0 ==> -40.0 <= AngleDifference(planDir, w.actualDir) < 40.0
    ensures planSpd >= 0.0 ==> w.actualSpd < planSpd + 10.0
    ensures w.actualSpd >= planSpd - 10.0
  {
    var offset := (dirDraw - 0.5) * 80.0;
    var dir := NormalizeAngle(planDir + offset);
    var spd := Max(0.0, planSpd + (spdDraw - 0.5) * 20.0);
    ShiftedDifference(planDir, offset);
    WindState(dir, spd, dir, spd, 0.0)
  }

  /** `Math.floor(r * 6) * (s < 0.5 ? -1 : 1)`: whole degrees between -5 and 5. */
  function DirectionStep(r: real, s: real): (k: int)
    requires IsDraw(r) && IsDraw(s)
    ensures -5 <= k <= 5
    ensures s < 0.5 ==> k <= 0
    ensures s >= 0.5 ==> k >= 0
  {
    (r * 6.0).Floor * (if s < 0.5 then -1 else 1)
  }

  /** `Math.floor(r * 11) - 5`: whole knots between -5 and 5. */
  function SpeedStep(r: real): (k: int)
    requires IsDraw(r)
    ensures -5 <= k <= 5
  {
    (r * 11.0).Floor - 5
  }

  /** Every whole number of degrees from -5 to 5 is drawn by some pair of draws. */
  lemma DirectionStepCovers(k: int)
    requires -5 <= k <= 5
    ensures DirectionStep(((if k < 0 then -k else k) as real + 0.5) / 6.0, if k < 0 then 0.0 else 0.5) == k
  {
    var r := ((if k < 0 then -k else k) as real + 0.5) / 6.0;
    assert r * 6.0 == (if k < 0 then -k else k) as real + 0.5;
  }

  /** Every whole number of knots from -5 to 5 is drawn by some draw. */
  lemma SpeedStepCovers(k: int)
    requires -5 <= k <= 5
    ensures SpeedStep(((k + 5) as real + 0.5) / 11.0) == k
  {
    var r := ((k + 5) as real + 0.5) / 11.0;
    assert r * 11.0 == (k + 5) as real + 0.5;
  }

  /** `Math.max(20, Math.min(70, x))` */
  function ClampSpeed(x: real): (y: real)
    ensures MinFluctuatedSpeed <= y <= MaxFluctuatedSpeed
    ensures MinFluctuatedSpeed <= x <= MaxFluctuatedSpeed ==> y == x
  {
    Max(MinFluctuatedSpeed, Min(MaxFluctuatedSpeed, x))
  }

  /** Clamping never moves two speeds farther apart. */
  lemma ClampSpeedNarrows(x: real, y: real)
    ensures Abs(ClampSpeed(x) - ClampSpeed(y)) <= Abs(x - y)
  {
  }

  /**
   * `updateWind`: direction a whole number of degrees, at most 5, either side of
   * the base direction, normalised; speed within 5 knots of the base, clamped to
   * 20..70. Both come from the base wind, not from the previous actual wind.
   */
  function Fluctuate(w: WindState, dirDraw: real, signDraw: real, spdDraw: real): (r: WindState)
    requires IsDraw(dirDraw) && IsDraw(signDraw) && IsDraw(spdDraw)
    ensures 0.0 <= r.actualDir < 360.0
    ensures MinFluctuatedSpeed <= r.actualSpd <= MaxFluctuatedSpeed
    ensures Abs(r.actualSpd - ClampSpeed(w.baseSpd)) <= 5.0
    ensures 0.0 <= w.baseDir < 360.0 ==> Abs(AngleDifference(w.baseDir, r.actualDir)) <= 5.0
    ensures r.baseDir == w.baseDir && r.baseSpd == w.baseSpd && r.lastChange == w.lastChange
  {
    var k := DirectionStep(dirDraw, signDraw);
    var dir := NormalizeAngle(w.baseDir + k as real);
    var v := SpeedStep(spdDraw);
    var spd := ClampSpeed(w.baseSpd + v as real);
    ClampSpeedNarrows(w.baseSpd + v as real, w.baseSpd);
    ShiftedDifference(w.baseDir, k as real);
    w.(actualDir := dir, actualSpd := spd)
  }

  /** Two states with the same base wind fluctuate alike: the previous actual wind plays no part. */
  lemma FluctuateForgets(w1: WindState, w2: WindState, dirDraw: real, signDraw: real, spdDraw: real)
    requires IsDraw(dirDraw) && IsDraw(signDraw) && IsDraw(spdDraw)
    requires w1.baseDir == w2.baseDir && w1.baseSpd == w2.baseSpd
    ensures Fluctuate(w1, dirDraw, signDraw, spdDraw).actualDir == Fluctuate(w2, dirDraw, signDraw, spdDraw).actualDir
    ensures Fluctuate(w1, dirDraw, signDraw, spdDraw).actualSpd == Fluctuate(w2, dirDraw, signDraw, spdDraw).actualSpd
  {
  }

  /**
   * The wind part of a frame at elapsed time `now`: a fluctuation, stamped with
   * `now`, once at least three seconds have passed since the last; otherwise the
   * wind is kept.
   */
  function WindTick(w: WindState, now: real, dirDraw: real, signDraw: real, spdDraw: real): (r: WindState)
    requires IsDraw(dirDraw) && IsDraw(signDraw) && IsDraw(spdDraw)
    ensures r.baseDir == w.baseDir && r.baseSpd == w.baseSpd
    ensures now - w.lastChange < ChangeInterval ==> r == w
    ensures now - w.lastChange >= ChangeInterval ==> r.lastChange == now
  {
    if now - w.lastChange >= ChangeInterval then Fluctuate(w, dirDraw, signDraw, spdDraw).(lastChange := now)
    else w
  }

  /** The wind of a run, as it keeps the base wind fixed and the actual wind within reach of it. */
  predicate WindInv(w: WindState) {
    && 0.0 <= w.baseDir < 360.0 && w.baseSpd >= 0.0
    && 0.0 <= w.actualDir < 360.0 && w.actualSpd >= 0.0
    && Abs(AngleDifference(w.baseDir, w.actualDir)) <= 5.0
    && w.lastChange >= 0.0
  }

  /** The seeded wind satisfies the invariant. */
  lemma SeedInv(planDir: real, planSpd: real, dirDraw: real, spdDraw: real)
    requires IsDraw(dirDraw) && IsDraw(spdDraw)
    ensures WindInv(Seed(planDir, planSpd, dirDraw, spdDraw))
  {
    var w := Seed(planDir, planSpd, dirDraw, spdDraw);
    assert AngleDifference(w.baseDir, w.actualDir) == 0.0;
  }

  /** Every frame keeps the invariant, as long as time does not run backwards. */
  lemma WindTickInv(w: WindState, now: real, dirDraw: real, signDraw: real, spdDraw: real)
    requires WindInv(w) && now >= w.lastChange
    requires IsDraw(dirDraw) && IsDraw(signDraw) && IsDraw(spdDraw)
    ensures WindInv(WindTick(w, now, dirDraw, signDraw, spdDraw))
    ensures WindTick(w, now, dirDraw, signDraw, spdDraw).lastChange <= now
  {
  }

  /** A sequence of frame times and draws. */
  datatype Frame = Frame(now: real, dirDraw: real, signDraw: real, spdDraw: real)

  predicate ValidFrames(fs: seq<Frame>) {
    forall i :: 0 <= i < |fs| ==> IsDraw(fs[i].dirDraw) && IsDraw(fs[i].signDraw) && IsDraw(fs[i].spdDraw)
  }

  /** The wind after the frames, in order. */
  function RunWind(w: WindState, fs: seq<Frame>): (r: WindState)
    requires ValidFrames(fs)
    decreases |fs|
  {
    if |fs| == 0 then w
    else
      var f := fs[|fs| - 1];
      WindTick(RunWind(w, fs[..|fs| - 1]), f.now, f.dirDraw, f.signDraw, f.spdDraw)
  }

  /**
   * Over frames at non-decreasing times, the wind changes only at frames at
   * least three seconds after the last change, and the last change never lies
   * later than the latest frame.
   */
  lemma {:induction false} WindChangesSpaced(w: WindState, fs: seq<Frame>)
    requires ValidFrames(fs) && |fs| > 0
    requires w.lastChange <= fs[0].now
    requires forall i :: 0 < i < |fs| ==> fs[i - 1].now <= fs[i].now
    ensures RunWind(w, fs).lastChange <= fs[|fs| - 1].now
    ensures var before := RunWind(w, fs[..|fs| - 1]);
      RunWind(w, fs) != before ==> fs[|fs| - 1].now - before.lastChange >= ChangeInterval
    decreases |fs|
  {
    var p := fs[..|fs| - 1];
    assert ValidFrames(p);
    if |fs| > 1 {
      WindChangesSpaced(w, p);
      assert p[|p| - 1] == fs[|fs| - 2];
    }
  }
}
